=== FILE: README.md ===
# swftly URL shortener: a Dafny model of its core

swftly is a small HTTP URL shortener. A `POST /api/urls` with a JSON body
`{"url": ...}` gets the next value of a counter kept in Redis, turns it into a
base-62 short code, stores the URL under the id and answers 201 with the code.
A request for `/<code>` that no route claims falls through to the redirect
handler. That handler decodes the code, looks the id up and answers 302 with
the stored URL in `Location`.

This project models the parts that decide what happens to a request:

- `encoder.dfy` (module `Encoder`): the base-62 alphabet, the 256-entry decode
  table, `encode` with its 5-character buffer, `decode` with its exact 64-bit
  overflow check, `calculate_capacity` and the error messages. Machine integers
  are `nat` with the explicit bound `Uint64Max`.
- `router.dfy` (module `Router`): the exact-match route table with emplace
  semantics, the two hash and equality overloads, and dispatch with a fallback.
- `conf.dfy` (module `Conf`): `is_valid`, an ordered ladder of checks in which
  the first failure wins, plus the configuration defaults.
- `storage.dfy` (module `Storage`): the Redis state as a counter and a map from
  id to URL. Every operation takes a fault flag.
- `http.dfy` (module `Http`): requests, responses, status codes and an abstract
  JSON value.
- `handlers.dfy` (module `Handlers`): the redirect handler, the create handler,
  and a corrected create handler that never issues a code a route shadows.
- `app.dfy` (module `App`): the routes registered at startup, the root and ping
  answers, and one request of a session, end to end.

The JSON parser is a parameter (`string -> Option<Json>`, where `None` means
the text is not JSON). Store failures are parameters: a flag for INCR and SET,
and a `Storage.GetFault` for GET, which tells a thrown failure from an error
reply. Build information is a parameter of the root handler.

## Model

| member | source | states |
|---|---|---|
| Encoder.CharsetLayout | src/encode/encoder.hpp:88 | the alphabet has 62 characters: positions 0-25 are `a`-`z`, 26-51 are `A`-`Z`, 52-61 are `0`-`9` |
| Encoder.CharsetIsSourceLiteral | src/encode/encoder.hpp:88 | the alphabet is exactly the source's 62-character literal |
| Encoder.CharsetDistinctAscii | src/encode/encoder.hpp:88-89 | the base equals the alphabet length, 62; the characters are pairwise distinct and all at most 127 |
| Encoder.GetCharset | src/encode/encoder.hpp:63-66 | `get_charset` returns the alphabet literal unchanged, 62 characters long |
| Encoder.GetBase | src/encode/encoder.hpp:73-76 | `get_base` returns 62, which is the length of what `get_charset` returns |
| Encoder.CharsetInverse | src/encode/encoder.cpp:17-21 | the digit of the d-th alphabet character is d; a character with a digit is the alphabet character at that position; having a digit is the same as being in the alphabet |
| Encoder.FillTable | src/encode/encoder.cpp:13-21 | after i rounds of the loop, an alphabet character whose position is below i maps to that position and every other byte maps to 255 |
| Encoder.FillRound | src/encode/encoder.cpp:17-21 | one round stores i-1 at the code of the (i-1)-th character, a code below 256, and this takes the table from i-1 filled rounds to i |
| Encoder.MakeDecodeTable | src/encode/encoder.cpp:11-24 | the finished table has 256 entries: each alphabet character maps to its digit and every other byte to 255 |
| Encoder.DecodeTableIsBuilt | src/encode/encoder.cpp:9 | the table `decode` reads, given entry by entry, is the one the building loop produces |
| Encoder.DecodeTableInvertsCharset | src/encode/encoder.cpp:11-24 | the table inverts the alphabet: the entry at the code of character d is d |
| Encoder.TableLookup | src/encode/encoder.cpp:65-69 | for a byte at most 127, the entry is 255 exactly when the byte is outside the alphabet, and otherwise it is the byte's digit |
| Encoder.DigitsDenote | src/encode/encoder.cpp:38-43 | the characters the encode loop writes for n are alphabet digits whose base-62 value is n; for n > 0 the first is not `a` |
| Encoder.DigitsLength | src/encode/encoder.cpp:38-43 | the loop writes at most k characters exactly when n < 62^k |
| Encoder.Encode | src/encode/encoder.cpp:26-47 | for a positive id below 62^5, the code has 1 to 5 characters, is canonical and denotes the id; for id 0 the braced `{1, kCharset[0]}` gives two characters, the byte 1 and `a`, and the code is all alphabet characters exactly when the id is positive |
| Encoder.EncodeZeroIsNotDecodable | src/encode/encoder.cpp:28-31 | the two-character code of id 0 is rejected by `decode` with InvalidCharacter |
| Encoder.EncodeLoopOverrunsBuffer | src/encode/encoder.cpp:34-43 | from 62^5 on, the loop writes more characters than the 5-character buffer holds |
| Encoder.FirstOverrunningId | src/encode/encoder.cpp:34-43 | 62^5 = 916132832 is the first such id; its digits take 6 characters |
| Encoder.EncodeWide | src/encode/encoder.cpp:26-47 | the corrected encoder, with room for every uint64 id and `"a"` for id 0: 1 to 11 characters, canonical, denoting the id, and equal to `encode` on every positive id below 62^5 |
| Encoder.OverflowCheckExact | src/encode/encoder.cpp:71-77 | the pre-multiplication check `acc > (2^64-1 - v) / 62` holds exactly when `acc * 62 + v` exceeds 2^64-1 |
| Encoder.DecodeLoop | src/encode/encoder.cpp:56-80 | the scan never reports empty input, and a value it returns is at least the starting accumulator and at most 2^64-1 |
| Encoder.Decode | src/encode/encoder.cpp:49-54 | EmptyInput is returned exactly for the empty string |
| Encoder.DecodeLoopMeetsSpec | src/encode/encoder.cpp:57-78 | from any point inside the longest all-digit prefix, the loop ends with what the loop-free description prescribes |
| Encoder.DecodeMeetsSpec | src/encode/encoder.cpp:49-81 | `decode` equals a description without a loop: the longest all-digit prefix decides between Overflow, InvalidCharacter and the value |
| Encoder.DecodeSucceedsIff | src/encode/encoder.cpp:49-81 | `decode` succeeds exactly on non-empty all-digit strings whose base-62 value fits 64 bits, and then it returns that value |
| Encoder.DecodeOverflowIff | src/encode/encoder.cpp:71-77 | Overflow is returned exactly when some all-digit prefix denotes more than 2^64-1 |
| Encoder.DecodeInvalidIff | src/encode/encoder.cpp:57-69 | InvalidCharacter is returned exactly when a non-alphabet character is reached while the value of the prefix before it still fits 64 bits |
| Encoder.DecodeRejectsHighByte | src/encode/encoder.cpp:59-63 | a byte above 127 that the scan reaches gives InvalidCharacter |
| Encoder.DecodeEncode | src/encode/encoder.cpp:26-81 | round trip: decoding the code of any positive id below 62^5 gives back the id; the code of id 0 gives InvalidCharacter |
| Encoder.DecodeEncodeWide | src/encode/encoder.cpp:49-81 | round trip for every uint64 id through the wide encoder |
| Encoder.EncodeInjective | src/encode/encoder.cpp:26-47 | distinct ids below 62^5 get distinct codes |
| Encoder.DecodeIgnoresLeadingZero | src/encode/encoder.cpp:56-78 | for a non-empty string, a leading `a` does not change the result of `decode` |
| Encoder.DigitsOfValue | src/encode/encoder.cpp:38-43 | a digit string without a leading `a` is exactly what the loop writes for its value |
| Encoder.EncodeDecodeCanonical | src/encode/encoder.cpp:26-81 | the other round trip: the corrected encoder re-encodes every canonical code that decodes to itself, and the source's `encode` does so for every such code of at most 5 characters except `"a"` |
| Encoder.CapacityLoop | src/encode/encoder.cpp:90-101 | the multiply-and-check loop returns 62^k, or 2^64-1 when 62^k does not fit |
| Encoder.CalculateCapacity | src/encode/encoder.cpp:83-102 | length 0 gives 0; any other length k gives 62^k saturated at 2^64-1 |
| Encoder.CapacityExactOrSaturated | src/encode/encoder.cpp:83-102 | the capacity is exactly 62^k for lengths 1 to 10, and 2^64-1 from length 11 on |
| Encoder.CapacityMonotone | src/encode/encoder.cpp:83-102 | a longer length never has a smaller capacity |
| Encoder.EncodeCapacityCoversPlan | src/encode/encoder.hpp:31 | the capacity of 5 characters, 916132832, covers 100k ids a day for seven years; an id fits in 5 characters exactly when it is below that capacity |
| Encoder.ErrorMessage | src/encode/encoder.cpp:104-116 | every error has a non-empty message |
| Encoder.ErrorMessagesDistinct | src/encode/encoder.cpp:104-116 | the three messages are distinct, so the message identifies the error |
| Router.EqualityOverloadsAgree | src/http/router.hpp:112-121 | the two equality overloads agree, and both are exact equality of method and target |
| Router.HashOverloadsAgree | src/http/router.hpp:88-103 | a stored key and a lookup key that compare equal hash to the same value |
| Router.NewRouter | src/http/router.cpp:8-10 | a new router has an empty table and the given fallback |
| Router.AddRoute | src/http/router.cpp:12-15 | a fresh key gains exactly the new binding; a key already present keeps its first handler; nothing else changes |
| Router.Dispatch | src/http/router.cpp:17-26 | the handler bound to a stored key equal to the request's method and target, or the fallback when there is no such key |
| Router.RegisterKeepsExisting | src/http/router.cpp:12-15 | after a series of registrations, a key already present is unchanged, a new key is bound to its first registration, and the fallback is kept |
| Router.DispatchAfterRegistration | src/http/router.cpp:17-26 | on a router built by registrations, dispatch gives the handler of the first registration of the exact key, or the fallback |
| Conf.DefaultLogLevel | src/conf/conf.hpp:15-19 | both default levels, release and debug, are valid levels |
| Conf.IsValid | src/conf/conf.cpp:79-113 | the check passes exactly when every field is valid, and the only errors it reports are InvalidPort, InvalidThreads, EmptyAddress and InvalidLogLevel |
| Conf.IsValidReportsFirstFailure | src/conf/conf.cpp:81-110 | the error reported is the one of the first failing check, in the order port, threads, address, log level, redis host, redis port |
| Conf.EarlierCheckWins | src/conf/conf.cpp:81-110 | a failing check decides the outcome whatever the later fields hold |
| Conf.PortBoundaries | src/conf/conf.cpp:81-110 | ports 0 and 65536 are rejected and 1 and 65535 accepted, for the server port and the redis port alike |
| Conf.DefaultConfigIsValid | src/conf/conf.hpp:21-29 | the default configuration passes validation in both build types |
| Conf.LogLevelsExact | src/conf/conf.cpp:11-12 | the valid levels are exactly the six lower-case names; upper-case spellings are rejected |
| Storage.GenerateNextId | src/storage/storage_service.cpp:38-60 | INCR succeeds unless it fails or the counter is at the signed 64-bit maximum; it yields counter+1, stores it as the counter and leaves the URLs alone |
| Storage.StoreUrl | src/storage/storage_service.cpp:62-91 | SET binds the id to the URL, keeps every other binding and the counter |
| Storage.GetUrl | src/storage/storage_service.cpp:93-114 | GET returns the URL stored under the id; it returns nothing when none is stored and also on an error reply, which `get_url` does not tell apart from a missing key; only a thrown failure propagates |
| Storage.GetAfterStore | src/storage/storage_service.cpp:62-114 | a stored URL reads back, and storing under one id leaves every other lookup unchanged |
| Storage.NextIdsIncrease | src/storage/storage_service.cpp:38-60 | a second INCR yields a larger id than the first |
| Handlers.ExtractShortCode | src/http/handlers/short_code_handler.cpp:70-81 | the target is the code or `"/"` followed by the code |
| Handlers.ExtractShortCodeStripsOneSlash | src/http/handlers/short_code_handler.cpp:70-81 | exactly one slash comes off: `"/" + x` gives x, `"//" + x` gives `"/" + x`, and a target without a leading slash is kept whole |
| Handlers.TryRedirect | src/http/handlers/short_code_handler.cpp:36-68 | it fails exactly when the store throws on a decodable code; otherwise it redirects exactly when the GET is answered normally and the code resolves, to the URL stored under the decoded id |
| Handlers.ShortCodeHandler | src/http/handlers/short_code_handler.cpp:15-34 | a resolving code gives 302 with Location set to the stored URL and content type text/html; a thrown store failure gives a bare 500; anything else, an error reply included, gives the JSON 404 `{"error":"Not found"}` |
| Handlers.ErrorReplyIsNotFound | src/storage/storage_service.cpp:106-113 | when the GET gets an error reply, the redirect handler answers the JSON 404, even for a code whose id is stored |
| Handlers.ShortCodeIgnoresMethodAndBody | src/http/handlers/short_code_handler.cpp:15-19 | the answer depends only on the target and the store, not on the method or the body |
| Handlers.MalformedCodeIsNotFound | src/http/handlers/short_code_handler.cpp:46-51 | a code that does not decode gives 404, whatever the store holds and whether it would fail |
| Handlers.EmptyCodeIsNotFound | src/http/handlers/short_code_handler.cpp:41-44 | the targets `"/"` and `""` give 404 |
| Handlers.OutsiderInCodeIsNotFound | src/http/handlers/short_code_handler.cpp:46-51 | a code with a character outside the alphabet anywhere in it gives 404 |
| Handlers.LeadingZeroAliasesCode | src/http/handlers/short_code_handler.cpp:36-68 | `"/"` + `a` + code is answered exactly as `"/"` + code, since `decode` ignores leading zero digits: a code that was never issued can redirect to an issued one's URL |
| Handlers.SlashOrQueryIsNotFound | src/http/handlers/short_code_handler.cpp:70-81 | a target with `?` at any position, or `/` at any position after the first, gives 404 whatever the store holds |
| Handlers.ValidateCreateBody | src/http/handlers/new_short_code_handler.cpp:27-63 | each of the five messages is returned exactly when its step is the first to fail; the body passes exactly when it is an object with a non-empty string `url`, and the result is that URL |
| Handlers.IssueCode | src/http/handlers/new_short_code_handler.cpp:66-86 | a failed INCR gives 500 with the store unchanged; a failed SET gives 500 with the counter advanced; otherwise 201 with the id's code from the corrected encoder, a code that decodes to the id, and the URL bound to the id |
| Handlers.NewShortCodeHandler | src/http/handlers/new_short_code_handler.cpp:18-87 | a rejected body gives 400 with its message and leaves the store alone; 201 is given exactly when the body is valid and both store calls succeed, and then the code is the corrected encoder's code of counter+1, equal to `encode(counter+1)` below 62^5, it decodes to counter+1 and that id is bound to the URL; a store failure gives the JSON 500 and binds nothing |
| Handlers.RejectedBodyMakesNoStoreCall | src/http/handlers/new_short_code_handler.cpp:27-63 | a rejected body gets the same 400 answer whatever the store holds and whichever store call would fail, and the store is unchanged |
| Handlers.CreateThenRedirect | src/http/handlers/new_short_code_handler.cpp:66-80 | a create with a valid body and no store failure is answered 201; afterwards a request with any method for `"/"` followed by the issued code is redirected to the submitted URL |
| Handlers.SuccessiveCodesDistinct | src/http/handlers/new_short_code_handler.cpp:68-71 | two creates in a row without store failures both succeed, issue different codes, and the first code still redirects to the first URL after the second create |
| Handlers.DrawId | src/http/handlers/new_short_code_handler.cpp:68-69 | the corrected id draw gives the next counter value when its code is not reserved; an id it yields is above the old counter, within the signed 64-bit range, not reserved, and becomes the new counter |
| Handlers.DrawIdSkipsOnlyReserved | src/http/handlers/new_short_code_handler.cpp:68-69 | every id the corrected draw passes over has a reserved code |
| Handlers.NewShortCodeAvoiding | src/http/handlers/new_short_code_handler.cpp:18-87 | the corrected create handler: the same 400 and 500 answers; 201 exactly when the body is valid, the draw succeeds and SET succeeds; a 201 code is never reserved, is the corrected encoder's code of a fresh id above the old counter, decodes to that id, and that id is bound to the URL |
| Handlers.AvoidingAgreesOffReserved | src/http/handlers/new_short_code_handler.cpp:66-80 | when the next id's code is not reserved, the corrected handler answers exactly as the source's handler |
| App.RootResponse | src/http/handlers/root_handler.cpp:10-23 | the root handler answers 200 with content type application/json and a JSON object of exactly four fields: server `"Swftly"` and the version, build type and git hash of the build |
| App.PingAnswersPong | src/http/handlers/ping_handler.cpp:9-20 | the ping answer, `App.PingResponse`, is 200 with content type application/json, no Location header and the JSON object `{"status":"ok","message":"pong"}`, so it is never a redirect |
| App.StartupRouting | src/main.cpp:74-78 | the startup table sends `GET /` to the root handler, `GET /ping` to the ping handler, `POST /api/urls` to the create handler, and every other request to the redirect handler |
| App.StartupRoutingIsExact | src/main.cpp:74-78 | for each registered path, every other method on it, and every method on it followed by a query string or by `/` and anything, falls through to the redirect handler |
| App.ServeAsWritten | src/http/server.cpp:244-248 | one request: only the create handler changes the store, every status is one the handlers set, and a 201 comes only from the create route |
| App.UnreservedCodeReachesRedirect | src/main.cpp:74-78 | a request for `"/"` followed by a code that no route shadows reaches the redirect handler, whatever its method |
| App.Serve | src/http/server.cpp:244-248 | with the corrected create handler, every request off the create route is served as the source serves it, and an issued code is never shadowed by a route |
| App.ServeAgreesOffReserved | src/main.cpp:74-78 | the corrected service differs from the source's only on a create whose next code a route shadows |
| App.StartupKeys | src/main.cpp:74-78 | the startup table holds only the three registered keys |
| App.ReservedCodesListed | src/main.cpp:74-78 | a code is shadowed by a route exactly when it is `""`, `"ping"` or `"api/urls"`: each of the three is shadowed and no other code is |
| App.ReservedIdIsPing | src/main.cpp:74-78 | a positive id has a shadowed code exactly when it is 3606484 |
| App.DrawIdSkipsPing | src/http/handlers/new_short_code_handler.cpp:68-69 | with the counter at 3606483 the corrected draw passes 3606484 over and yields 3606485 |
| App.DrawIdFailsOnlyAtMax | src/http/handlers/new_short_code_handler.cpp:68-69 | the corrected draw fails exactly when a single INCR would, at the counter's maximum; the id it yields is at most counter+2, and counter+2 only when counter+1 has a shadowed code, which `App.ReservedIdIsPing` limits to 3606484 |
| App.DrawIdSkipsAtMostOne | src/http/handlers/new_short_code_handler.cpp:68-69 | below the counter's maximum the corrected draw succeeds with counter+1, or with counter+2 when the code of counter+1 is shadowed |
| App.IssuedCodeRedirects | src/http/handlers/new_short_code_handler.cpp:66-80 | end to end through the router: a create with a valid body, no store failure and the counter below its maximum is answered 201, and afterwards a request with any method for `"/"` followed by the issued code is redirected to the submitted URL |
| App.PingIdSpellsPing | src/encode/encoder.cpp:26-47 | the code of id 3606484 is `"ping"` |
| App.PingCodeIsShadowed | src/main.cpp:74-78 | the source's service issues `"ping"` when the counter is at 3606483, and a GET for `/ping` then returns the ping answer, not the redirect |

## Left out

- The HTTP server, sessions, listener, threads, timeouts and signal handling are left out. So are the Server and keep-alive headers a session adds, and the serialisation of a response. These are I/O and concurrency. `App.ServeAsWritten` models only the dispatch step of a session.
- The Redis transport is left out: connection, reconnection and protocol errors become the fault flags of `Storage`. INCR and SET fail on either a thrown failure or an error reply. GET distinguishes the two (`Storage.GetFault`): a thrown failure fails, and an error reply reads as a missing key, as `get_url` does. The key names `url_counter` and `url:<id>` are shown by the map itself, not as strings.
- The `exists` and `ping` storage operations are left out, because no handler of the core calls them.
- JSON text, parsing and serialisation (Boost.JSON) are left out. Parsing is the parameter `parse`, and a response body is the JSON value that would be serialised. JSON numbers are integers.
- Command-line parsing in `Config::load` is left out; it belongs to the argument library. Only `is_valid` and the defaults are modelled.
- Logging, `version.hpp` and the rest of `main.cpp` are left out. Build information is a parameter of the root handler; only the route table of `main.cpp` is modelled.
- The `"Unknown error"` fallback of `to_string` is not modelled, because every error value has its own case.
- Encoder.Encode: requires an id below 62^5, where the source's 5-character buffer holds every digit. Larger ids write outside the buffer; see Findings.
- Router.HashOverloadsAgree: both overloads are given one string hash. The model assumes that the hashing library's `std::string` and `std::string_view` hashes agree on equal contents.
- Handlers.IssueCode: encodes with `Encoder.EncodeWide`, not with the source's `encode`. The two agree on every id from 1 to 62^5 - 1. From 62^5 on, the source's behaviour is undefined (see Findings), so the model gives the full code instead. Id 0 never reaches it, because INCR yields at least 1.
- Request methods: the HTTP library's named verbs outside the nine listed are `Named`, one per name. Every unrecognised method is the single `Unknown`, as in Beast; its original spelling is not kept.
- Storage.GenerateNextId: fails when the counter is at the signed 64-bit maximum, as Redis INCR does. The source's cast of the returned `long long` to `uint64_t` therefore never sees a negative value.
- Handlers.DrawId: one fault flag covers every INCR of a draw; a draw in which only a later INCR fails is not modelled.
- Handlers.ReservedId: a reserved id is one whose digit string is a reserved code. This equals its `EncodeWide` code for every positive id, which is every id INCR returns.

## Findings

| source | as written | input that shows it | evidently intended | confidence | as-written member | corrected member |
|---|---|---|---|---|---|---|
| src/encode/encoder.cpp:34-43 | `encode` writes its digits right to left into a 5-character buffer with no bound on the loop | id 916132832 (62^5) has 6 base-62 digits, so the sixth write lands before the buffer; the create handler reaches it after 916132831 URLs | every uint64 id gets its full base-62 code | high, not executed | Encoder.EncodeLoopOverrunsBuffer | Encoder.EncodeWide |
| src/encode/encoder.cpp:28-31 | `encode(0)` returns `{1, kCharset[0]}`, which list-initialises a `std::string` from two characters | `encode(0)` is the byte 1 followed by `a`, and `decode` of it fails with InvalidCharacter | `encode(0)` is `"a"`, so 0 round-trips like every other id | high, not executed | Encoder.EncodeZeroIsNotDecodable | Encoder.DecodeEncodeWide |
| src/main.cpp:74-78 | the create handler issues the code of whatever id the counter yields, while `GET /ping` is a registered route | with the counter at 3606483 the next code is `"ping"`; `GET /ping` then answers `{"status":"ok","message":"pong"}` instead of redirecting | every issued short URL redirects | medium, not executed | App.PingCodeIsShadowed | App.IssuedCodeRedirects |

The corrected members are used by the rest of the model. `Handlers.IssueCode`
encodes with `Encoder.EncodeWide`; `Encoder.DecodeEncodeWide` proves its round
trip for every uint64 id, 0 included. `App.Serve` issues ids through
`Handlers.NewShortCodeAvoiding`, which skips ids whose code a route shadows.
`App.ServeAgreesOffReserved` shows it agrees with the source's service on
every other request.
`App.DrawIdSkipsPing` shows that the skip happens at 3606484, and
`App.DrawIdFailsOnlyAtMax` shows that the skip never makes a create fail:
only id 3606484 is passed over.

Short codes are not unique names for ids. `decode` ignores leading `a`
digits, so `"/a" + code` redirects wherever `"/" + code` does
(`Handlers.LeadingZeroAliasesCode`). This is how the decoder is written, and
the model keeps it; a lookup of a non-canonical code is not "not found".

=== FILE: app.dfy ===
/** The service as assembled at startup: the route table, the per-request
    dispatch step of a session, and the two informational handlers. */
module App {
  import opened Wrappers
  import opened Router
  import opened Encoder
  import opened Storage
  import opened Http
  import opened Handlers

  /** The handlers the service registers. */
  datatype HandlerId = RootHandler | PingHandler | NewShortCode | ShortCode

  /** The routes registered at startup, in registration order; the
      redirect handler is the fallback. */
  const StartupRoutes: seq<(RouteKey, HandlerId)> := [
    (RouteKey(Get, "/"), RootHandler),
    (RouteKey(Get, "/ping"), PingHandler),
    (RouteKey(Post, "/api/urls"), NewShortCode)
  ]

  function StartupRouter(): Router<HandlerId>
  {
    Register(NewRouter(ShortCode), StartupRoutes)
  }

  /** The startup router sends exactly the three registered (method,
      target) pairs to their handlers and everything else to the redirect
      handler. */
  lemma StartupRouting(verb: Verb, target: string)
    ensures Dispatch(StartupRouter(), verb, target) ==
      if verb == Get && target == "/" then RootHandler
      else if verb == Get && target == "/ping" then PingHandler
      else if verb == Post && target == "/api/urls" then NewShortCode
      else ShortCode
  {
    DispatchAfterRegistration(ShortCode, StartupRoutes, verb, target);
    var key := RouteKey(verb, target);
    assert StartupRoutes[1..][1..][1..] == [];
    assert FirstRegistration(StartupRoutes[1..][1..][1..], key) == None;
  }

  /** Matching is exact. On a registered path, any other method falls
      through to the redirect handler; so does any method on a registered
      path followed by a query string or by further path segments
      (including a bare trailing slash). */
  lemma StartupRoutingIsExact(i: nat, verb: Verb, suffix: string)
    requires i < |StartupRoutes|
    requires |suffix| > 0 && (suffix[0] == '?' || suffix[0] == '/')
    ensures verb != StartupRoutes[i].0.verb ==>
      Dispatch(StartupRouter(), verb, StartupRoutes[i].0.target) == ShortCode
    ensures Dispatch(StartupRouter(), verb, StartupRoutes[i].0.target + suffix) == ShortCode
  {
    var path := StartupRoutes[i].0.target;
    var t := path + suffix;
    StartupRouting(verb, path);
    StartupRouting(verb, t);
    assert t[1] == (if i == 0 then suffix[0] else path[1]);
    assert t != "/" && t != "/ping" && t != "/api/urls" by {
      assert |t| > |path|;
      assert "/ping"[1] == 'p' && "/api/urls"[1] == 'a';
    }
  }

  /** Build information reported by the root handler; fixed when the
      program is built. */
  datatype BuildInfo = BuildInfo(version: string, buildType: string, gitHash: string)

  /** The root handler's answer: 200 with a JSON object naming the
      server and giving the build information, whatever the request. */
  function RootResponse(build: BuildInfo): (r: Response)
    ensures r.status == StatusOk && r.contentType == Some(ApplicationJson) && r.location == None
    ensures r.body.Some? && r.body.value.Object?
    ensures r.body.value.fields.Keys == {"server", "version", "build_type", "git_hash"}
    ensures r.body.value.fields["server"] == Str("Swftly")
    ensures r.body.value.fields["version"] == Str(build.version)
    ensures r.body.value.fields["build_type"] == Str(build.buildType)
    ensures r.body.value.fields["git_hash"] == Str(build.gitHash)
  {
    JsonResponse(StatusOk, Object(map[
      "server" := Str("Swftly"),
      "version" := Str(build.version),
      "build_type" := Str(build.buildType),
      "git_hash" := Str(build.gitHash)]))
  }

  /** The ping handler's answer. */
  const PingResponse: Response :=
    JsonResponse(StatusOk, Object(map["status" := Str("ok"), "message" := Str("pong")]))

  /** The ping answer is 200 with the JSON object {"status": "ok",
      "message": "pong"} and no Location header: it is never a
      redirect. */
  lemma PingAnswersPong()
    ensures PingResponse.status == StatusOk && PingResponse.contentType == Some(ApplicationJson)
    ensures PingResponse.location == None && PingResponse.status != StatusFound
    ensures PingResponse.body.Some? && PingResponse.body.value.Object?
    ensures PingResponse.body.value.fields.Keys == {"status", "message"}
    ensures PingResponse.body.value.fields["status"] == Str("ok")
    ensures PingResponse.body.value.fields["message"] == Str("pong")
  {
  }

  /** What a request is served against besides the store: the JSON
      parser, the build information and which store operations fail. */
  datatype Env = Env(parse: string -> Option<Json>, build: BuildInfo, getFault: GetFault, createFaults: CreateFaults)

  /** One request of a session with the source's create handler: the
      router picks one handler, which fills the fresh response; only the
      create handler changes the store. */
  function ServeAsWritten(req: Request, st: Store, env: Env): (out: (Response, Store))
    ensures Dispatch(StartupRouter(), req.verb, req.target) != NewShortCode ==> out.1 == st
    ensures out.0.status in {StatusOk, StatusCreated, StatusFound, StatusBadRequest, StatusNotFound, StatusInternalServerError}
    ensures out.0.status == StatusCreated ==> Dispatch(StartupRouter(), req.verb, req.target) == NewShortCode
  {
    match Dispatch(StartupRouter(), req.verb, req.target)
    case RootHandler => (RootResponse(env.build), st)
    case PingHandler => (PingResponse, st)
    case NewShortCode => NewShortCodeHandler(req, env.parse, st, env.createFaults)
    case ShortCode => (ShortCodeHandler(req, st, env.getFault), st)
  }

  /** The codes a registered route shadows: "/" + code is the target of
      some route, so a request for it never reaches the redirect handler
      with that method. */
  function ReservedCodes(): set<string>
  {
    set k | k in StartupRouter().routes :: ExtractShortCode(k.target)
  }

  /** A request for "/" + code with a code that no route shadows goes to
      the redirect handler, whatever its method. */
  lemma UnreservedCodeReachesRedirect(verb: Verb, code: string)
    requires code !in ReservedCodes()
    ensures Dispatch(StartupRouter(), verb, "/" + code) == ShortCode
  {
    var key := RouteKey(verb, "/" + code);
    ExtractShortCodeStripsOneSlash(code);
    assert key in StartupRouter().routes ==> ExtractShortCode(key.target) in ReservedCodes();
  }

  /** One request of a session with the create handler that skips ids
      whose code a route shadows. */
  function Serve(req: Request, st: Store, env: Env): (out: (Response, Store))
    ensures Dispatch(StartupRouter(), req.verb, req.target) != NewShortCode ==> out == ServeAsWritten(req, st, env)
    ensures out.0.status == StatusCreated ==>
      && Dispatch(StartupRouter(), req.verb, req.target) == NewShortCode
      && ShortCodeOf(out.0) !in ReservedCodes()
  {
    match Dispatch(StartupRouter(), req.verb, req.target)
    case RootHandler => (RootResponse(env.build), st)
    case PingHandler => (PingResponse, st)
    case NewShortCode => NewShortCodeAvoiding(req, env.parse, st, env.createFaults, ReservedCodes())
    case ShortCode => (ShortCodeHandler(req, st, env.getFault), st)
  }

  /** The two versions of the service differ only on a create whose next
      id would have a shadowed code. */
  lemma ServeAgreesOffReserved(req: Request, st: Store, env: Env)
    requires !ReservedId(st.counter + 1, ReservedCodes())
    ensures Serve(req, st, env) == ServeAsWritten(req, st, env)
  {
    AvoidingAgreesOffReserved(req, env.parse, st, env.createFaults, ReservedCodes());
  }

  /** The startup table holds exactly the three registered keys. */
  lemma StartupKeys(k: RouteKey)
    requires k in StartupRouter().routes
    ensures k == RouteKey(Get, "/") || k == RouteKey(Get, "/ping") || k == RouteKey(Post, "/api/urls")
  {
    RegisterKeepsExisting(NewRouter(ShortCode), StartupRoutes, k);
    assert StartupRoutes[1..][1..][1..] == [];
  }

  /** The shadowed codes are exactly "" (from "/"), "ping" and
      "api/urls". */
  lemma ReservedCodesListed(c: string)
    ensures c in ReservedCodes() <==> c == "" || c == "ping" || c == "api/urls"
  {
    if c in ReservedCodes() {
      var k :| k in StartupRouter().routes && ExtractShortCode(k.target) == c;
      StartupKeys(k);
      ExtractShortCodeStripsOneSlash("");
      ExtractShortCodeStripsOneSlash("ping");
      ExtractShortCodeStripsOneSlash("api/urls");
    }
    StartupRouting(Get, "/");
    StartupRouting(Get, "/ping");
    StartupRouting(Post, "/api/urls");
    assert RouteKey(Get, "/") in StartupRouter().routes;
    assert RouteKey(Get, "/ping") in StartupRouter().routes;
    assert RouteKey(Post, "/api/urls") in StartupRouter().routes;
    assert ExtractShortCode("/") == "";
    assert ExtractShortCode("/ping") == "ping";
    assert ExtractShortCode("/api/urls") == "api/urls";
  }

  /** Among the ids the counter yields, PingId alone has a shadowed code:
      "" is no positive id's code and "api/urls" holds a '/'. */
  lemma ReservedIdIsPing(id: nat)
    requires 0 < id
    ensures ReservedId(id, ReservedCodes()) <==> id == PingId
  {
    ReservedCodesListed("ping");
    PingIdSpellsPing();
    EncodeWideOfPositive(PingId);
    DigitsDenote(PingId);
    DigitsDenote(id);
    var d := Digits(id);
    assert d in ReservedCodes() ==> d == "" || d == "ping" || d == "api/urls" by {
      if d in ReservedCodes() {
        ReservedCodesListed(d);
      }
    }
    assert !AllDigits("api/urls") by {
      assert !IsDigitChar("api/urls"[3]);
    }
  }

  /** Below the counter's maximum the draw that skips shadowed codes
      succeeds, with the next id or, when that one is shadowed, the id
      after it. */
  lemma DrawIdSkipsAtMostOne(st: Store)
    requires st.counter < Int64Max
    ensures var r := DrawId(st, false, ReservedCodes());
      && r.Success?
      && st.counter < r.value.0 <= st.counter + 2
      && (r.value.0 == st.counter + 2 ==> ReservedId(st.counter + 1, ReservedCodes()))
  {
    var reserved := ReservedCodes();
    var next := GenerateNextId(st, false);
    var st1 := next.value.1;
    ReservedIdIsPing(st.counter + 1);
    if ReservedId(st.counter + 1, reserved) {
      ReservedIdIsPing(st1.counter + 1);
      assert !ReservedId(st1.counter + 1, reserved);
      assert DrawId(st1, false, reserved) == GenerateNextId(st1, false);
      assert DrawId(st, false, reserved) == DrawId(st1, false, reserved);
    } else {
      assert DrawId(st, false, reserved) == next;
    }
  }

  /** The skip does happen: with the counter just below PingId, the draw
      passes PingId over and yields the id after it. */
  lemma DrawIdSkipsPing(st: Store)
    requires st.counter + 1 == PingId
    ensures DrawId(st, false, ReservedCodes()).Success?
    ensures DrawId(st, false, ReservedCodes()).value.0 == st.counter + 2
  {
    DrawIdSkipsAtMostOne(st);
    ReservedIdIsPing(st.counter + 1);
  }

  /** The draw that skips shadowed codes fails exactly where a single
      INCR fails: it skips at most one id, one whose code is shadowed
      (only PingId is, by ReservedIdIsPing), and the id after it is
      free. */
  lemma DrawIdFailsOnlyAtMax(st: Store)
    ensures DrawId(st, false, ReservedCodes()).Success? <==> st.counter < Int64Max
    ensures var r := DrawId(st, false, ReservedCodes());
      r.Success? ==> r.value.0 <= st.counter + 2 && (r.value.0 == st.counter + 2 ==> ReservedId(st.counter + 1, ReservedCodes()))
  {
    if st.counter < Int64Max {
      DrawIdSkipsAtMostOne(st);
    } else {
      assert DrawId(st, false, ReservedCodes()) == GenerateNextId(st, false);
    }
  }

  /** End to end through the router: a create with a valid body, no store
      failure and a counter below its maximum is answered 201, and afterwards a
      request for "/" + the issued code, with any method and body, is
      redirected to the submitted URL. */
  lemma IssuedCodeRedirects(req: Request, st: Store, env: Env, verb: Verb, body: string)
    requires Dispatch(StartupRouter(), req.verb, req.target) == NewShortCode
    requires IsCreateBody(env.parse(req.body))
    requires !env.createFaults.incrFails && !env.createFaults.setFails && env.getFault == NoFault
    requires st.counter < Int64Max
    ensures Serve(req, st, env).0.status == StatusCreated
    ensures var out := Serve(req, st, env);
      Serve(Request(verb, "/" + ShortCodeOf(out.0), body), out.1, env).0 ==
        Response(StatusFound, Some(TextHtml), Some(env.parse(req.body).value.fields["url"].s), None)
  {
    DrawIdFailsOnlyAtMax(st);
    var out := Serve(req, st, env);
    var code := ShortCodeOf(out.0);
    UnreservedCodeReachesRedirect(verb, code);
    ExtractShortCodeStripsOneSlash(code);
  }

  /** The id whose code spells "ping". */
  const PingId: nat := 3_606_484

  lemma PingIdSpellsPing()
    ensures EncodeWide(PingId) == "ping"
    ensures PingId < PowBase(MaxDigits) && Encode(PingId) == "ping"
  {
    CharsetLayout();
    assert Charset[15] == 'p' && Charset[8] == 'i' && Charset[13] == 'n' && Charset[6] == 'g';
    assert Digits(15) == Digits(0) + ['p'] == "p";
    assert Digits(938) == Digits(15) + ['i'] == "pi";
    assert Digits(58169) == Digits(938) + ['n'] == "pin";
    assert Digits(PingId) == Digits(58169) + ['g'] == "ping";
    EncodeWideOfPositive(PingId);
  }

  /** The source's create handler issues "ping" for id 3606484, but a GET
      for "/ping" is answered by the ping handler: that short URL never
      redirects with GET. */
  lemma PingCodeIsShadowed(req: Request, st: Store, env: Env, probe: Request)
    requires Dispatch(StartupRouter(), req.verb, req.target) == NewShortCode
    requires IsCreateBody(env.parse(req.body))
    requires env.createFaults == CreateFaults(false, false)
    requires st.counter == PingId - 1
    requires probe.verb == Get && probe.target == "/ping"
    ensures ServeAsWritten(req, st, env).0.status == StatusCreated
    ensures ShortCodeOf(ServeAsWritten(req, st, env).0) == "ping"
    ensures ServeAsWritten(probe, ServeAsWritten(req, st, env).1, env).0 == PingResponse
  {
    PingIdSpellsPing();
    DecodeEncodeWide(PingId);
    var out := ServeAsWritten(req, st, env);
    assert Decode(ShortCodeOf(out.0)) == Success(PingId);
    StartupRouting(Get, "/ping");
  }
}

=== FILE: conf.dfy ===
/** Validation of the server configuration. Command-line parsing is left
    to the argument library; what is modelled is the check that runs on
    the parsed values, a fixed ladder of range and membership tests whose
    first failure is the reported error. */
module Conf {
  import opened Wrappers

  /** Why loading the configuration failed. */
  datatype ConfigError =
    | HelpRequested    // --help was given; not a real error
    | InvalidPort      // a port outside 1..65535
    | InvalidThreads   // a thread count below 1
    | EmptyAddress     // an empty address
    | ParseError       // the argument parser rejected the command line
    | InvalidLogLevel  // a log level outside the allowed six
    | UnexpectedError  // any other exception during loading

  const DefaultAddress: string := "127.0.0.1"
  const DefaultPort: int := 8080
  const MinPort: int := 1
  const MaxPort: int := 65535
  const MinThreads: int := 1
  const DefaultRedisHost: string := "127.0.0.1"
  const DefaultRedisPort: int := 6379

  /** The accepted log levels, compared case-sensitively. */
  const ValidLogLevels: set<string> := {"trace", "debug", "info", "warning", "error", "fatal"}

  /** The default log level: "info" in a release build (NDEBUG defined),
      "trace" otherwise. */
  function DefaultLogLevel(ndebug: bool): (level: string)
    ensures level in ValidLogLevels
  {
    if ndebug then "info" else "trace"
  }

  /** The parsed configuration. Ports and the thread count are the
      source's `int`s; the parser itself rejects values outside int. */
  datatype Config = Config(
    address: string,
    port: int,
    threads: int,
    logLevel: string,
    redisHost: string,
    redisPort: int)

  /** The configuration `load` produces when no option is given. */
  function DefaultConfig(ndebug: bool): Config
  {
    Config(DefaultAddress, DefaultPort, MinThreads, DefaultLogLevel(ndebug), DefaultRedisHost, DefaultRedisPort)
  }

  predicate PortInRange(p: int)
  {
    MinPort <= p <= MaxPort
  }

  /** Every field acceptable on its own. */
  predicate AllFieldsValid(c: Config)
  {
    && PortInRange(c.port)
    && c.threads >= MinThreads
    && |c.address| > 0
    && c.logLevel in ValidLogLevels
    && |c.redisHost| > 0
    && PortInRange(c.redisPort)
  }

  /** is_valid: port, threads, address, log level, redis host, redis port,
      in that order; the first failure decides. The redis checks reuse the
      server's codes: an empty host is EmptyAddress, a bad port
      InvalidPort. */
  function IsValid(c: Config): (r: Outcome<ConfigError>)
    ensures r == Pass <==> AllFieldsValid(c)
    ensures r.Fail? ==> r.error in {InvalidPort, InvalidThreads, EmptyAddress, InvalidLogLevel}
  {
    if !(MinPort <= c.port && c.port <= MaxPort) then Fail(InvalidPort)
    else if c.threads < MinThreads then Fail(InvalidThreads)
    else if |c.address| == 0 then Fail(EmptyAddress)
    else if c.logLevel !in ValidLogLevels then Fail(InvalidLogLevel)
    else if |c.redisHost| == 0 then Fail(EmptyAddress)
    else if !(MinPort <= c.redisPort && c.redisPort <= MaxPort) then Fail(InvalidPort)
    else Pass
  }

  /** The checks in the order `is_valid` makes them, each with the error
      it reports. */
  function Checks(c: Config): seq<(bool, ConfigError)>
  {
    [ (PortInRange(c.port), InvalidPort),
      (c.threads >= MinThreads, InvalidThreads),
      (|c.address| > 0, EmptyAddress),
      (c.logLevel in ValidLogLevels, InvalidLogLevel),
      (|c.redisHost| > 0, EmptyAddress),
      (PortInRange(c.redisPort), InvalidPort) ]
  }

  /** The error of the first failing check of a list, if any. */
  function FirstFailure(checks: seq<(bool, ConfigError)>): Outcome<ConfigError>
    decreases |checks|
  {
    if |checks| == 0 then Pass
    else if !checks[0].0 then Fail(checks[0].1)
    else FirstFailure(checks[1..])
  }

  /** `is_valid` reports the error of the first check that fails, in the
      order port, threads, address, log level, redis host, redis port. */
  lemma IsValidReportsFirstFailure(c: Config)
    ensures IsValid(c) == FirstFailure(Checks(c))
  {
    var cs := Checks(c);
    assert cs[6..] == [];
    assert forall k :: 0 <= k < 6 ==> cs[k..][1..] == cs[k + 1..];
    assert FirstFailure(cs[5..]) == if cs[5].0 then Pass else Fail(cs[5].1);
    assert FirstFailure(cs[4..]) == if cs[4].0 then FirstFailure(cs[5..]) else Fail(cs[4].1);
    assert FirstFailure(cs[3..]) == if cs[3].0 then FirstFailure(cs[4..]) else Fail(cs[3].1);
    assert FirstFailure(cs[2..]) == if cs[2].0 then FirstFailure(cs[3..]) else Fail(cs[2].1);
    assert FirstFailure(cs[1..]) == if cs[1].0 then FirstFailure(cs[2..]) else Fail(cs[1].1);
  }

  /** A failing check decides the outcome whatever the later fields hold:
      e.g. a bad port together with an empty address is InvalidPort. */
  lemma {:induction false} EarlierCheckWins(c: Config, k: nat)
    requires k < |Checks(c)| && !Checks(c)[k].0
    requires forall j :: 0 <= j < k ==> Checks(c)[j].0
    ensures IsValid(c) == Fail(Checks(c)[k].1)
  {
    var cs := Checks(c);
    if k > 0 {
      assert cs[0].0;
    }
    if k > 1 {
      assert cs[1].0;
    }
    if k > 2 {
      assert cs[2].0;
    }
    if k > 3 {
      assert cs[3].0;
    }
    if k > 4 {
      assert cs[4].0;
    }
  }

  /** Port boundaries: 0 and 65536 are rejected, 1 and 65535 accepted,
      for the server port and the redis port alike. */
  lemma PortBoundaries(c: Config)
    requires AllFieldsValid(c)
    ensures IsValid(c.(port := 0)) == Fail(InvalidPort)
    ensures IsValid(c.(port := 65536)) == Fail(InvalidPort)
    ensures IsValid(c.(port := 1)) == Pass && IsValid(c.(port := 65535)) == Pass
    ensures IsValid(c.(redisPort := 0)) == Fail(InvalidPort)
    ensures IsValid(c.(redisPort := 65536)) == Fail(InvalidPort)
    ensures IsValid(c.(redisPort := 1)) == Pass && IsValid(c.(redisPort := 65535)) == Pass
  {
  }

  /** The configuration used when no option is given passes validation,
      in release and debug builds alike. */
  lemma DefaultConfigIsValid(ndebug: bool)
    ensures IsValid(DefaultConfig(ndebug)) == Pass
  {
  }

  /** The valid log levels are exactly the six lower-case names; case
      matters. */
  lemma LogLevelsExact(level: string)
    ensures level in ValidLogLevels <==>
      level == "trace" || level == "debug" || level == "info" ||
      level == "warning" || level == "error" || level == "fatal"
    ensures "INFO" !in ValidLogLevels && "Info" !in ValidLogLevels
  {
  }
}

=== FILE: encoder.dfy ===
/** The Base62 encoder of the URL shortener: a counter id is written in
    base 62 over the alphabet a-z, A-Z, 0-9 to form a short code, and a
    short code is read back into an unsigned 64-bit id.

    Integers are unbounded here; the source's uint64_t range is the
    explicit bound `Uint64Max`. A `char` of a string stands for one byte
    of the source's std::string / std::string_view. */
module Encoder {
  import opened Wrappers

  /** Why decoding a short code failed. */
  datatype EncoderError =
    | InvalidCharacter  // a byte outside the alphabet
    | EmptyInput        // the empty string
    | Overflow          // the value would not fit in 64 bits

  const Uint64Max: nat := 0xFFFF_FFFF_FFFF_FFFF

  // The alphabet, written as three literals so that its layout can be
  // reasoned about piece by piece; `CharsetIsSourceLiteral` shows that
  // their concatenation is the single literal of the source.
  const Lower: string := "abcdefghijklmnopqrstuvwxyz"
  const Upper: string := "ABCDEFGHIJKLMNOPQRSTUVWXYZ"
  const Decimal: string := "0123456789"
  const Charset: string := Lower + Upper + Decimal

  const Base: nat := 62
  const AsciiTableSize: nat := 256
  const MaxAsciiValue: nat := 127
  const InvalidValue: nat := 255
  /** Size of the buffer `encode` writes its digits into. */
  const MaxDigits: nat := 5

  /** Ids the service expects to issue: 100k a day for seven years. */
  const PlannedIds: nat := 100_000 * 365 * 7

  /** 62 to the power k. */
  function PowBase(k: nat): (r: nat)
    ensures r >= 1
  {
    if k == 0 then 1 else Base * PowBase(k - 1)
  }

  /* ---------------------------------------------------------------- */
  /* The alphabet                                                      */
  /* ---------------------------------------------------------------- */

  /** Position i of the alphabet holds the i-th lower-case letter, then
      the upper-case letters, then the decimal digits. */
  lemma CharsetLayout()
    ensures |Charset| == Base
    ensures forall i :: 0 <= i < 26 ==> Charset[i] as int == 'a' as int + i
    ensures forall i :: 26 <= i < 52 ==> Charset[i] as int == 'A' as int + (i - 26)
    ensures forall i :: 52 <= i < 62 ==> Charset[i] as int == '0' as int + (i - 52)
  {
    assert forall i :: 0 <= i < 26 ==> Lower[i] as int == 'a' as int + i;
    assert forall i :: 0 <= i < 26 ==> Upper[i] as int == 'A' as int + i;
    assert forall i :: 0 <= i < 10 ==> Decimal[i] as int == '0' as int + i;
  }

  lemma CharsetIsSourceLiteral()
    ensures Charset == "abcdefghijklmnopqrstuvwxyzABCDEFGHIJKLMNOPQRSTUVWXYZ0123456789"
  {
  }

  /** The 62 characters are pairwise distinct and all 7-bit ASCII. */
  lemma CharsetDistinctAscii()
    ensures |Charset| == Base
    ensures forall i, j :: 0 <= i < j < |Charset| ==> Charset[i] != Charset[j]
    ensures forall i :: 0 <= i < |Charset| ==> Charset[i] as int <= MaxAsciiValue
  {
    CharsetLayout();
  }

  /** The source's get_charset: the alphabet, unchanged. */
  function GetCharset(): (r: string)
    ensures r == "abcdefghijklmnopqrstuvwxyzABCDEFGHIJKLMNOPQRSTUVWXYZ0123456789"
    ensures |r| == 62
  {
    CharsetIsSourceLiteral();
    Charset
  }

  /** The source's get_base: the size of the alphabet, 62. */
  function GetBase(): (r: nat)
    ensures r == |GetCharset()| == 62
  {
    Base
  }

  /** Membership in the alphabet, by character ranges. */
  predicate IsDigitChar(c: char)
  {
    ('a' <= c <= 'z') || ('A' <= c <= 'Z') || ('0' <= c <= '9')
  }

  predicate AllDigits(s: string)
  {
    forall i :: 0 <= i < |s| ==> IsDigitChar(s[i])
  }

  /** The digit a character of the alphabet stands for. */
  function DigitValue(c: char): (d: nat)
    requires IsDigitChar(c)
    ensures d < Base
  {
    if 'a' <= c <= 'z' then c as int - 'a' as int
    else if 'A' <= c <= 'Z' then c as int - 'A' as int + 26
    else c as int - '0' as int + 52
  }

  /** The range predicate is membership in the alphabet, and the digit
      of a character is its position there. */
  lemma CharsetInverse()
    ensures forall d :: 0 <= d < Base ==> IsDigitChar(Charset[d]) && DigitValue(Charset[d]) == d
    ensures forall c :: IsDigitChar(c) ==> Charset[DigitValue(c)] == c
    ensures forall c :: IsDigitChar(c) <==> c in Charset
  {
    CharsetLayout();
  }

  lemma {:induction false} DigitValueOfCharset(d: nat)
    requires d < Base
    ensures IsDigitChar(Charset[d]) && DigitValue(Charset[d]) == d
  {
    CharsetInverse();
  }

  /** The number a string of alphabet characters denotes, most
      significant digit first. */
  ghost function Value(s: string): nat
    requires AllDigits(s)
    decreases |s|
  {
    if |s| == 0 then 0 else Value(s[..|s| - 1]) * Base + DigitValue(s[|s| - 1])
  }

  /** A string in the form the wide encoder produces: non-empty, and with no
      leading zero digit unless it is the single zero digit. */
  predicate Canonical(s: string)
  {
    |s| >= 1 && (|s| > 1 ==> s[0] != Charset[0])
  }

  /* ---------------------------------------------------------------- */
  /* The decode table                                                  */
  /* ---------------------------------------------------------------- */

  /** Entry c of the table after the first i rounds of
      make_decode_table's loop: the digit of an alphabet character whose
      digit is below i (it has been stored), 255 otherwise (the initial
      fill). */
  function FilledEntry(c: nat, i: nat): nat
    requires c < AsciiTableSize
  {
    if IsDigitChar(c as char) && DigitValue(c as char) < i then DigitValue(c as char) else InvalidValue
  }

  /** The table after the first `i` rounds of make_decode_table's loop:
      every entry starts at 255 and round j stores j at Charset[j]. */
  function FillTable(i: nat): (t: seq<nat>)
    requires i <= Base
    ensures |t| == AsciiTableSize
    ensures forall c :: 0 <= c < AsciiTableSize ==> t[c] == FilledEntry(c, i)
    decreases i
  {
    if i == 0 then seq(AsciiTableSize, _ => InvalidValue)
    else
      var prev := FillTable(i - 1);
      FillRound(prev, i);
      prev[Charset[i - 1] as int := i - 1]
  }

  /** Round i - 1 of the loop stores i - 1 at the code of Charset[i - 1]
      and changes no other entry. */
  lemma {:induction false} FillRound(prev: seq<nat>, i: nat)
    requires 0 < i <= Base && |prev| == AsciiTableSize
    requires forall c :: 0 <= c < AsciiTableSize ==> prev[c] == FilledEntry(c, i - 1)
    ensures Charset[i - 1] as int < AsciiTableSize
    ensures forall c :: 0 <= c < AsciiTableSize ==>
      prev[Charset[i - 1] as int := i - 1][c] == FilledEntry(c, i)
  {
    CharsetDistinctAscii();
    CharsetInverse();
    var k := Charset[i - 1] as int;
    forall c | 0 <= c < AsciiTableSize
      ensures prev[k := i - 1][c] == FilledEntry(c, i)
    {
      if c == k {
        assert c as char == Charset[i - 1];
      } else {
        assert IsDigitChar(c as char) ==> Charset[DigitValue(c as char)] == c as char;
      }
    }
  }

  /** make_decode_table: every alphabet character maps to its digit, and
      every other byte to 255. */
  function MakeDecodeTable(): (t: seq<nat>)
    ensures |t| == AsciiTableSize
    ensures forall c :: 0 <= c < AsciiTableSize ==>
      t[c] == if IsDigitChar(c as char) then DigitValue(c as char) else InvalidValue
  {
    FillTable(Base)
  }

  /** Entry c of the decode table: the digit of an alphabet character,
      255 for every other byte. */
  function TableEntry(c: nat): nat
    requires c < AsciiTableSize
  {
    if IsDigitChar(c as char) then DigitValue(c as char) else InvalidValue
  }

  /** The 256 entries side by side. */
  function EntryTable(): (t: seq<nat>)
    ensures |t| == AsciiTableSize
    ensures forall c :: 0 <= c < AsciiTableSize ==> t[c] == TableEntry(c)
  {
    seq(AsciiTableSize, c requires 0 <= c < AsciiTableSize => TableEntry(c))
  }

  /** The table `decode` reads. It is given entry by entry, so that a
      lookup costs one entry and not a replay of the building loop;
      `DecodeTableIsBuilt` shows it is the table make_decode_table
      builds. */
  const DecodeTable: seq<nat> := EntryTable()

  lemma DecodeTableIsBuilt()
    ensures MakeDecodeTable() == DecodeTable
  {
    var t := MakeDecodeTable();
    assert forall c :: 0 <= c < AsciiTableSize ==> t[c] == DecodeTable[c];
  }

  /** The table inverts the alphabet: the entry at the code of the d-th
      character is d. */
  lemma DecodeTableInvertsCharset(d: nat)
    requires d < Base
    ensures Charset[d] as int < AsciiTableSize && DecodeTable[Charset[d] as int] == d
  {
    CharsetDistinctAscii();
    DigitValueOfCharset(d);
    assert (Charset[d] as int) as char == Charset[d];
  }

  /** What the two character checks of `decode` decide: a byte up to 127
      passes the table check exactly when it is in the alphabet, and then
      the table yields its digit. */
  lemma {:induction false} TableLookup(c: char)
    requires c as int <= MaxAsciiValue
    ensures |DecodeTable| == AsciiTableSize
    ensures DecodeTable[c as int] == InvalidValue <==> !IsDigitChar(c)
    ensures IsDigitChar(c) ==> DecodeTable[c as int] == DigitValue(c)
  {
  }

  /* ---------------------------------------------------------------- */
  /* Encoding                                                          */
  /* ---------------------------------------------------------------- */

  /** The characters `encode`'s loop writes for n, most significant first
      (the loop emits n % 62 and divides by 62 until n is 0). */
  function Digits(n: nat): string
    decreases n
  {
    if n == 0 then [] else Digits(n / Base) + [Charset[n % Base]]
  }

  lemma {:induction false} DigitsDenote(n: nat)
    ensures AllDigits(Digits(n)) && Value(Digits(n)) == n
    ensures n > 0 ==> |Digits(n)| > 0 && Digits(n)[0] != Charset[0]
    decreases n
  {
    if n > 0 {
      var q, r := n / Base, n % Base;
      DigitsDenote(q);
      var s := Digits(n);
      assert s == Digits(q) + [Charset[r]];
      assert s[..|s| - 1] == Digits(q);
      DigitValueOfCharset(r);
      CharsetDistinctAscii();
      assert Value(s) == q * Base + r;
    }
  }

  lemma {:induction false} DivBelow(n: nat, p: nat)
    ensures n / Base < p <==> n < Base * p
  {
  }

  /** The loop writes at most k characters exactly when n < 62^k. */
  lemma {:induction false} DigitsLength(n: nat, k: nat)
    ensures |Digits(n)| <= k <==> n < PowBase(k)
    decreases n
  {
    if n == 0 {
      assert |Digits(n)| == 0;
    } else if k == 0 {
      assert |Digits(n)| > 0 by {
        assert Digits(n) == Digits(n / Base) + [Charset[n % Base]];
      }
    } else {
      var p := PowBase(k - 1);
      assert PowBase(k) == Base * p;
      assert |Digits(n)| == |Digits(n / Base)| + 1 by {
        assert Digits(n) == Digits(n / Base) + [Charset[n % Base]];
      }
      DigitsLength(n / Base, k - 1);
      DivBelow(n, p);
    }
  }

  /** The source's `encode` with its 5-character buffer: defined only
      for ids below 62^5, where the buffer holds every digit. A positive
      id yields its canonical base-62 numeral, 1 to 5 characters long.
      Id 0 takes the early return, whose braced initialiser picks the
      character-list constructor of `std::string`: the result is the two
      characters 1 and 'a', not the numeral "a". */
  function Encode(n: nat): (s: string)
    requires n < PowBase(MaxDigits)
    ensures 0 < n ==> 1 <= |s| <= MaxDigits && AllDigits(s) && Value(s) == n && Canonical(s)
    ensures n == 0 ==> s == [1 as char, Charset[0]] && !IsDigitChar(s[0])
    ensures AllDigits(s) <==> 0 < n
  {
    DigitsDenote(n);
    DigitsLength(n, MaxDigits);
    CharsetDistinctAscii();
    if n == 0 then [1 as char, Charset[0]] else Digits(n)
  }

  /** The code `encode` returns for id 0 does not decode: its first
      character is outside the alphabet. */
  lemma EncodeZeroIsNotDecodable()
    ensures |Encode(0)| == 2
    ensures Decode(Encode(0)) == Failure(InvalidCharacter)
  {
    var s := Encode(0);
    TableLookup(s[0]);
  }

  /** The digits of ids from 62^5 on no longer fit the 5-character buffer:
      the loop of `encode` writes past its start. */
  lemma {:induction false} EncodeLoopOverrunsBuffer(n: nat)
    requires PowBase(MaxDigits) <= n
    ensures |Digits(n)| > MaxDigits
  {
    DigitsLength(n, MaxDigits);
  }

  /** The first id whose digits overrun the buffer: 62^5 = 916132832
      needs six characters. */
  lemma FirstOverrunningId()
    ensures PowBase(MaxDigits) == 916_132_832
    ensures |Digits(916_132_832)| == MaxDigits + 1
  {
    DigitsLength(916_132_832, MaxDigits);
    DigitsLength(916_132_832, MaxDigits + 1);
  }

  /** A buffer of 11 characters holds every uint64 id. */
  const WideDigits: nat := 11

  lemma PowFacts()
    ensures PowBase(MaxDigits) == 916_132_832
    ensures PowBase(10) == 839_299_365_868_340_224 <= Uint64Max
    ensures PowBase(WideDigits) == 52_036_560_683_837_093_888 > Uint64Max
  {
  }

  /** `encode` with a buffer wide enough for every uint64 id and with
      "a" for id 0; on positive ids below 62^5 it coincides with the
      source's `encode`. */
  function EncodeWide(n: nat): (s: string)
    requires n <= Uint64Max
    ensures 1 <= |s| <= WideDigits
    ensures AllDigits(s) && Value(s) == n
    ensures Canonical(s)
    ensures 0 < n < PowBase(MaxDigits) ==> s == Encode(n)
  {
    DigitsDenote(n);
    PowFacts();
    DigitsLength(n, WideDigits);
    if n == 0 then [Charset[0]] else Digits(n)
  }

  /* ---------------------------------------------------------------- */
  /* Decoding                                                          */
  /* ---------------------------------------------------------------- */

  /** The check `result > (UINT64_MAX - value) / 62` is exact: it holds
      exactly when result * 62 + value leaves the 64-bit range. */
  lemma {:induction false} OverflowCheckExact(acc: nat, v: nat)
    requires v <= Uint64Max
    ensures acc > (Uint64Max - v) / Base <==> acc * Base + v > Uint64Max
  {
  }

  /** The loop of `decode` from position i with running result acc. */
  function DecodeLoop(s: string, i: nat, acc: nat): (r: Result<nat, EncoderError>)
    requires i <= |s|
    requires acc <= Uint64Max
    ensures r != Failure(EmptyInput)
    ensures r.Success? ==> acc <= r.value <= Uint64Max
    decreases |s| - i
  {
    if i == |s| then Success(acc)
    else
      var c := s[i];
      if c as int > MaxAsciiValue then Failure(InvalidCharacter)
      else
        var value := DecodeTable[c as int];
        if value == InvalidValue then Failure(InvalidCharacter)
        else if acc > (Uint64Max - value) / Base then Failure(Overflow)
        else
          OverflowCheckExact(acc, value);
          DecodeLoop(s, i + 1, acc * Base + value)
  }

  /** The source's `decode`. */
  function Decode(s: string): (r: Result<nat, EncoderError>)
    ensures r == Failure(EmptyInput) <==> |s| == 0
  {
    if |s| == 0 then Failure(EmptyInput) else DecodeLoop(s, 0, 0)
  }

  /** The index of the first character outside the alphabet at or after
      i, or |s| if there is none. */
  ghost function FirstNonDigitFrom(s: string, i: nat): (p: nat)
    requires i <= |s|
    ensures i <= p <= |s|
    ensures forall j :: i <= j < p ==> IsDigitChar(s[j])
    ensures p < |s| ==> !IsDigitChar(s[p])
    decreases |s| - i
  {
    if i == |s| || !IsDigitChar(s[i]) then i else FirstNonDigitFrom(s, i + 1)
  }

  ghost function ValidPrefixLength(s: string): (p: nat)
    ensures p <= |s| && AllDigits(s[..p])
    ensures p < |s| ==> !IsDigitChar(s[p])
  {
    FirstNonDigitFrom(s, 0)
  }

  /** The longest all-digit prefix is the only prefix that is all digits
      and is followed by a non-digit or the end. */
  lemma {:induction false} ValidPrefixUnique(s: string, k: nat)
    requires k <= |s| && AllDigits(s[..k])
    requires k < |s| ==> !IsDigitChar(s[k])
    ensures ValidPrefixLength(s) == k
  {
  }

  /** What `decode` computes, stated without its loop: empty input is an
      error; otherwise the longest all-digit prefix decides. If its value
      exceeds 64 bits the result is Overflow (the running value crosses
      the bound before the scan reaches any bad character); else a bad
      character after it gives InvalidCharacter; else the value. */
  ghost function DecodeSpec(s: string): Result<nat, EncoderError>
  {
    if |s| == 0 then Failure(EmptyInput)
    else
      var p := ValidPrefixLength(s);
      if Value(s[..p]) > Uint64Max then Failure(Overflow)
      else if p < |s| then Failure(InvalidCharacter)
      else Success(Value(s))
  }

  lemma {:induction false} ValueOfLonger(s: string, k: nat)
    requires 0 < k <= |s| && AllDigits(s[..k])
    ensures AllDigits(s[..k - 1])
    ensures Value(s[..k]) == Value(s[..k - 1]) * Base + DigitValue(s[k - 1])
  {
    assert s[..k][..k - 1] == s[..k - 1];
  }

  /** Longer all-digit prefixes never denote smaller values. */
  lemma {:induction false} ValuePrefixMonotone(s: string, j: nat, k: nat)
    requires j <= k <= |s| && AllDigits(s[..k])
    ensures AllDigits(s[..j])
    ensures Value(s[..j]) <= Value(s[..k])
    decreases k - j
  {
    if j < k {
      ValueOfLonger(s, k);
      ValuePrefixMonotone(s, j, k - 1);
    }
  }

  /** The loop stops where the longest all-digit prefix ends: with the
      value at the end of the string, with InvalidCharacter before a
      character outside the alphabet. */
  lemma {:induction false} DecodeLoopAtPrefixEnd(s: string, acc: nat)
    requires 0 < |s|
    requires acc == Value(s[..ValidPrefixLength(s)]) && acc <= Uint64Max
    ensures DecodeLoop(s, ValidPrefixLength(s), acc) == DecodeSpec(s)
  {
    var p := ValidPrefixLength(s);
    if p == |s| {
      assert s[..p] == s;
    } else if s[p] as int <= MaxAsciiValue {
      TableLookup(s[p]);
    }
  }

  /** One round of the loop on an alphabet character: it either
      overflows or moves on with the digit appended. */
  lemma {:induction false} DecodeLoopDigitStep(s: string, i: nat, acc: nat)
    requires i < |s| && IsDigitChar(s[i]) && acc <= Uint64Max
    ensures DecodeLoop(s, i, acc) ==
      if acc * Base + DigitValue(s[i]) > Uint64Max then Failure(Overflow)
      else DecodeLoop(s, i + 1, acc * Base + DigitValue(s[i]))
  {
    TableLookup(s[i]);
    OverflowCheckExact(acc, DigitValue(s[i]));
  }

  lemma {:induction false} DecodeLoopMeetsSpec(s: string, i: nat, acc: nat)
    requires 0 < |s|
    requires i <= ValidPrefixLength(s)
    requires AllDigits(s[..i]) && acc == Value(s[..i]) && acc <= Uint64Max
    ensures DecodeLoop(s, i, acc) == DecodeSpec(s)
    decreases |s| - i, 1
  {
    if i == ValidPrefixLength(s) {
      DecodeLoopAtPrefixEnd(s, acc);
    } else {
      DecodeLoopInsidePrefix(s, i, acc);
    }
  }

  /** A round of the loop inside the all-digit prefix: it overflows
      exactly when the longer prefix's value does, and otherwise moves on
      with that value. */
  lemma {:induction false} DecodeLoopInsidePrefix(s: string, i: nat, acc: nat)
    requires 0 < |s|
    requires i < ValidPrefixLength(s)
    requires AllDigits(s[..i]) && acc == Value(s[..i]) && acc <= Uint64Max
    ensures DecodeLoop(s, i, acc) == DecodeSpec(s)
    decreases |s| - i, 0
  {
    var p := ValidPrefixLength(s);
    assert s[..p][i] == s[i];
    ValuePrefixMonotone(s, i + 1, p);
    ValueOfLonger(s, i + 1);
    DecodeLoopDigitStep(s, i, acc);
    var next := acc * Base + DigitValue(s[i]);
    if next <= Uint64Max {
      DecodeLoopMeetsSpec(s, i + 1, next);
    }
  }

  /** `decode` agrees with its loop-free description. */
  lemma {:induction false} DecodeMeetsSpec(s: string)
    ensures Decode(s) == DecodeSpec(s)
  {
    if |s| > 0 {
      assert s[..0] == [];
      DecodeLoopMeetsSpec(s, 0, 0);
    }
  }

  /** `decode` succeeds exactly on non-empty all-digit strings whose
      value fits 64 bits, and then yields that value. */
  lemma {:induction false} DecodeSucceedsIff(s: string)
    ensures Decode(s).Success? <==> |s| > 0 && AllDigits(s) && Value(s) <= Uint64Max
    ensures Decode(s).Success? ==> AllDigits(s) && Decode(s).value == Value(s)
  {
    DecodeMeetsSpec(s);
    if |s| > 0 {
      var p := ValidPrefixLength(s);
      if AllDigits(s) {
        assert s[..|s|] == s;
        ValidPrefixUnique(s, |s|);
      }
      if p == |s| {
        assert s[..p] == s;
      }
    }
  }

  /** Overflow is reported exactly when some all-digit prefix exceeds the
      64-bit range: the pre-multiplication check is exact. */
  lemma {:induction false} DecodeOverflowIff(s: string)
    ensures Decode(s) == Failure(Overflow) <==>
      exists j :: 0 < j <= |s| && AllDigits(s[..j]) && Value(s[..j]) > Uint64Max
  {
    DecodeMeetsSpec(s);
    var p := ValidPrefixLength(s);
    if Decode(s) == Failure(Overflow) {
      assert p != 0 by { assert s[..0] == []; }
      assert 0 < p <= |s| && AllDigits(s[..p]) && Value(s[..p]) > Uint64Max;
    }
    if exists j :: 0 < j <= |s| && AllDigits(s[..j]) && Value(s[..j]) > Uint64Max {
      var j :| 0 < j <= |s| && AllDigits(s[..j]) && Value(s[..j]) > Uint64Max;
      ValuePrefixMonotone(s, j, p);
    }
  }

  /** InvalidCharacter is reported exactly when a character outside the
      alphabet is reached while the value read so far still fits: the
      scan is left to right, so a bad character before an overflowing
      prefix wins, and one after it is never seen. */
  lemma {:induction false} DecodeInvalidIff(s: string)
    ensures Decode(s) == Failure(InvalidCharacter) <==>
      exists k :: 0 <= k < |s| && !IsDigitChar(s[k]) && AllDigits(s[..k]) && Value(s[..k]) <= Uint64Max
  {
    DecodeMeetsSpec(s);
    var p := ValidPrefixLength(s);
    if exists k :: 0 <= k < |s| && !IsDigitChar(s[k]) && AllDigits(s[..k]) && Value(s[..k]) <= Uint64Max {
      var k :| 0 <= k < |s| && !IsDigitChar(s[k]) && AllDigits(s[..k]) && Value(s[..k]) <= Uint64Max;
      ValidPrefixUnique(s, k);
    }
  }

  /** A byte above 127 makes `decode` fail with InvalidCharacter when
      every byte before it is a digit and their value fits 64 bits. */
  lemma {:induction false} DecodeRejectsHighByte(s: string, k: nat)
    requires k < |s| && s[k] as int > MaxAsciiValue
    requires AllDigits(s[..k]) && Value(s[..k]) <= Uint64Max
    ensures Decode(s) == Failure(InvalidCharacter)
  {
    CharsetDistinctAscii();
    DecodeInvalidIff(s);
  }

  /** Round trip: decoding the code of any positive id below 62^5 gives
      the id; the code of id 0 is rejected. */
  lemma {:induction false} DecodeEncode(n: nat)
    requires n < PowBase(MaxDigits)
    ensures 0 < n ==> Decode(Encode(n)) == Success(n)
    ensures n == 0 ==> Decode(Encode(n)) == Failure(InvalidCharacter)
  {
    if n == 0 {
      EncodeZeroIsNotDecodable();
    } else {
      PowFacts();
      DecodeSucceedsIff(Encode(n));
    }
  }

  /** Round trip for the wide encoder: every uint64 id comes back. */
  lemma {:induction false} DecodeEncodeWide(n: nat)
    requires n <= Uint64Max
    ensures Decode(EncodeWide(n)) == Success(n)
  {
    DecodeSucceedsIff(EncodeWide(n));
  }

  /** Distinct ids below 62^5 receive distinct codes. */
  lemma {:induction false} EncodeInjective(m: nat, n: nat)
    requires m < PowBase(MaxDigits) && n < PowBase(MaxDigits)
    requires Encode(m) == Encode(n)
    ensures m == n
  {
  }

  lemma {:induction false} ValueSkipsLeadingZero(t: string)
    requires AllDigits(t)
    ensures AllDigits([Charset[0]] + t)
    ensures Value([Charset[0]] + t) == Value(t)
    decreases |t|
  {
    var z := [Charset[0]] + t;
    DigitValueOfCharset(0);
    if |t| == 0 {
      assert z[..0] == [];
    } else {
      ValueSkipsLeadingZero(t[..|t| - 1]);
      assert z[..|z| - 1] == [Charset[0]] + t[..|t| - 1];
    }
  }

  /** Leading zero digits are ignored: prefixing a non-empty string with
      'a' does not change what `decode` returns. */
  lemma {:induction false} DecodeIgnoresLeadingZero(s: string)
    requires |s| > 0
    ensures Decode([Charset[0]] + s) == Decode(s)
  {
    var z := [Charset[0]] + s;
    DecodeMeetsSpec(s);
    DecodeMeetsSpec(z);
    var p := ValidPrefixLength(s);
    CharsetDistinctAscii();
    assert z[..p + 1] == [Charset[0]] + s[..p];
    assert p + 1 < |z| ==> z[p + 1] == s[p];
    ValidPrefixUnique(z, p + 1);
    ValueSkipsLeadingZero(s[..p]);
    if p == |s| {
      assert s[..p] == s;
      assert z[..p + 1] == z;
    }
  }

  /** A numeral with a non-zero leading digit denotes a positive number. */
  lemma {:induction false} ValuePositive(s: string)
    requires AllDigits(s) && |s| > 0 && s[0] != Charset[0]
    ensures Value(s) > 0
  {
    assert Charset[0] == 'a';
    assert s[..|s|] == s;
    ValuePrefixMonotone(s, 1, |s|);
    ValueOfLonger(s, 1);
    assert s[..0] == [];
  }

  lemma {:induction false} DivModBase(q: nat, d: nat)
    requires d < Base
    ensures (q * Base + d) / Base == q && (q * Base + d) % Base == d
  {
  }

  /** A canonical all-digit string is the numeral the encoding loop
      writes for its value. */
  lemma {:induction false} DigitsOfValue(s: string)
    requires AllDigits(s)
    requires |s| > 0 ==> s[0] != Charset[0]
    ensures Digits(Value(s)) == s
    decreases |s|
  {
    if |s| > 0 {
      var init, c := s[..|s| - 1], s[|s| - 1];
      if |init| > 0 {
        assert init[0] == s[0];
      }
      DigitsOfValue(init);
      var n := Value(s);
      DivModBase(Value(init), DigitValue(c));
      ValuePositive(s);
      CharsetInverse();
      assert Digits(n) == Digits(Value(init)) + [c];
      assert s == init + [c];
    }
  }

  /** The wide encoder inverts `decode` on canonical codes, and the
      source's `encode` does so on those of at most five characters
      other than "a", the code of id 0. */
  lemma {:induction false} EncodeDecodeCanonical(s: string)
    requires Canonical(s)
    requires Decode(s).Success?
    ensures EncodeWide(Decode(s).value) == s
    ensures |s| <= MaxDigits ==> Decode(s).value < PowBase(MaxDigits)
    ensures |s| <= MaxDigits && s != [Charset[0]] ==> Encode(Decode(s).value) == s
  {
    DecodeSucceedsIff(s);
    var n := Value(s);
    if s[0] == Charset[0] {
      assert s == [Charset[0]];
      DigitValueOfCharset(0);
      assert s[..0] == [];
    } else {
      DigitsOfValue(s);
      DigitsLength(n, MaxDigits);
    }
  }

  /* ---------------------------------------------------------------- */
  /* Capacity                                                          */
  /* ---------------------------------------------------------------- */

  /** x, or UINT64_MAX if x does not fit 64 bits. */
  function Saturate(x: nat): nat
  {
    if x <= Uint64Max then x else Uint64Max
  }

  lemma {:induction false} PowMonotone(j: nat, k: nat)
    requires j <= k
    ensures PowBase(j) <= PowBase(k)
    decreases k - j
  {
    if j < k {
      PowMonotone(j, k - 1);
    }
  }

  /** The loop of `calculate_capacity` from round i with running result
      62^i: it multiplies by 62 and saturates as soon as the next step
      would leave 64 bits. */
  function CapacityLoop(k: nat, i: nat, result: nat): (r: nat)
    requires i <= k
    requires result == PowBase(i) <= Uint64Max
    ensures r == Saturate(PowBase(k))
    decreases k - i
  {
    if i == k then result
    else if result > Uint64Max / Base then
      PowMonotone(i + 1, k);
      Uint64Max
    else CapacityLoop(k, i + 1, result * Base)
  }

  /** The source's `calculate_capacity`: the number of codes of length
      k, 62^k saturated at UINT64_MAX, except that length 0 gives 0. */
  function CalculateCapacity(k: nat): (r: nat)
    ensures k == 0 ==> r == 0
    ensures k > 0 ==> r == Saturate(PowBase(k))
  {
    if k == 0 then 0 else CapacityLoop(k, 0, 1)
  }

  /** The capacity is exact up to length 10 and saturated from 11 on. */
  lemma {:induction false} CapacityExactOrSaturated(k: nat)
    ensures 1 <= k <= 10 ==> CalculateCapacity(k) == PowBase(k)
    ensures k >= WideDigits ==> CalculateCapacity(k) == Uint64Max
  {
    PowFacts();
    if 1 <= k <= 10 {
      PowMonotone(k, 10);
    } else if k >= WideDigits {
      PowMonotone(WideDigits, k);
    }
  }

  lemma {:induction false} CapacityMonotone(j: nat, k: nat)
    requires j <= k
    ensures CalculateCapacity(j) <= CalculateCapacity(k)
  {
    if 0 < j {
      PowMonotone(j, k);
    }
  }

  /** The 5-character buffer is sized by the capacity of length 5: an id
      fits exactly when it is below that capacity, and the capacity
      covers the planned 255.5 million ids. */
  lemma {:induction false} EncodeCapacityCoversPlan(n: nat)
    ensures CalculateCapacity(MaxDigits) == 916_132_832 >= PlannedIds
    ensures |Digits(n)| <= MaxDigits <==> n < CalculateCapacity(MaxDigits)
  {
    PowFacts();
    DigitsLength(n, MaxDigits);
  }

  /** The source's `to_string(EncoderError)`. */
  function ErrorMessage(e: EncoderError): (m: string)
    ensures |m| > 0
  {
    match e
    case InvalidCharacter => "Invalid character in Base62 string"
    case EmptyInput => "Empty input string"
    case Overflow => "Decoded value exceeds maximum range"
  }

  /** Each error has its own message. */
  lemma {:induction false} ErrorMessagesDistinct(e1: EncoderError, e2: EncoderError)
    requires ErrorMessage(e1) == ErrorMessage(e2)
    ensures e1 == e2
  {
  }
}

=== FILE: handlers.dfy ===
/** The two handlers that touch the store: the redirect handler (the
    router's fallback), which reads a short code from the request target,
    and the create handler, which issues a short code for a URL. Each is
    a function of the request, the store state and the store's faults;
    the create handler also returns the new store state. */
module Handlers {
  import opened Wrappers
  import opened Router
  import opened Encoder
  import opened Storage
  import opened Http

  /* ---------------------------------------------------------------- */
  /* Redirect handler                                                  */
  /* ---------------------------------------------------------------- */

  /** extract_short_code: the target with at most one leading '/'
      removed; nothing else is stripped. */
  function ExtractShortCode(path: string): (code: string)
    ensures path == code || path == "/" + code
    ensures |code| >= |path| - 1
  {
    if |path| > 0 && path[0] == '/' then path[1..] else path
  }

  /** Exactly one slash comes off: "/" + x gives back x, and a target
      that does not start with '/' is kept whole. */
  lemma ExtractShortCodeStripsOneSlash(x: string)
    ensures ExtractShortCode("/" + x) == x
    ensures (|x| == 0 || x[0] != '/') ==> ExtractShortCode(x) == x
    ensures ExtractShortCode("//" + x) == "/" + x
  {
  }

  /** What try_redirect found out. */
  datatype Lookup = NotHandled | Redirect(url: string)

  /** A code that decodes to an id with a stored URL. */
  predicate Resolves(code: string, st: Store)
  {
    Decode(code).Success? && Decode(code).value in st.urls
  }

  /** try_redirect: an empty code or one that does not decode is not
      handled without asking the store; a decoded id is looked up, and a
      missing URL, or an error reply in its place, is not handled either.
      A thrown store failure propagates. */
  function TryRedirect(path: string, st: Store, getFault: GetFault): (r: Result<Lookup, StorageError>)
    ensures r.Failure? <==> getFault == Throws && Decode(ExtractShortCode(path)).Success?
    ensures r.Success? ==> (r.value.Redirect? <==> getFault == NoFault && Resolves(ExtractShortCode(path), st))
    ensures r.Success? && r.value.Redirect? ==>
      r.value.url == st.urls[Decode(ExtractShortCode(path)).value]
  {
    var code := ExtractShortCode(path);
    if |code| == 0 then Success(NotHandled)
    else
      match Decode(code)
      case Failure(_) => Success(NotHandled)
      case Success(id) =>
        match GetUrl(st, id, getFault)
        case Failure(e) => Failure(e)
        case Success(None) => Success(NotHandled)
        case Success(Some(url)) => Success(Redirect(url))
  }

  const NotFoundMessage: string := "Not found"

  /** The 404 answer: {"error":"Not found"} as JSON. */
  const NotFoundResponse: Response := JsonResponse(StatusNotFound, ErrorBody(NotFoundMessage))

  /** The answer to a store failure: status 500 and nothing else set. */
  const RedirectFailureResponse: Response := FreshResponse.(status := StatusInternalServerError)

  /** The redirect handler (the router's fallback). A resolving code gives
      302 Found with Location set to the stored URL exactly; a thrown store
      failure gives a bare 500; everything else, malformed and unknown
      codes and error replies alike, gives the same JSON 404. */
  function ShortCodeHandler(req: Request, st: Store, getFault: GetFault): (res: Response)
    ensures res.status in {StatusFound, StatusNotFound, StatusInternalServerError}
    ensures var code := ExtractShortCode(req.target);
      getFault == NoFault && Resolves(code, st) ==>
        res == Response(StatusFound, Some(TextHtml), Some(st.urls[Decode(code).value]), None)
    ensures var code := ExtractShortCode(req.target);
      getFault == Throws && Decode(code).Success? ==> res == RedirectFailureResponse
    ensures var code := ExtractShortCode(req.target);
      !(getFault == NoFault && Resolves(code, st)) && !(getFault == Throws && Decode(code).Success?) ==>
        res == NotFoundResponse
  {
    match TryRedirect(req.target, st, getFault)
    case Failure(_) => RedirectFailureResponse
    case Success(Redirect(url)) =>
      FreshResponse.(status := StatusFound, location := Some(url), contentType := Some(TextHtml))
    case Success(NotHandled) => NotFoundResponse
  }

  /** The answer depends on the target and the store only, never on the
      request method or body. */
  lemma ShortCodeIgnoresMethodAndBody(req1: Request, req2: Request, st: Store, getFault: GetFault)
    requires req1.target == req2.target
    ensures ShortCodeHandler(req1, st, getFault) == ShortCodeHandler(req2, st, getFault)
  {
  }

  /** An error reply to the GET reads as a missing key: the answer is the
      JSON 404 even for a code whose id is stored. */
  lemma ErrorReplyIsNotFound(req: Request, st: Store)
    ensures ShortCodeHandler(req, st, ErrorReply) == NotFoundResponse
  {
  }

  /** Codes with leading zero digits alias the code without them:
      "/" + "a" + code is answered exactly as "/" + code, so a valid code
      that was never issued can still redirect. */
  lemma LeadingZeroAliasesCode(verb: Verb, code: string, st: Store, getFault: GetFault)
    requires |code| > 0
    ensures ShortCodeHandler(Request(verb, "/" + ([Charset[0]] + code), ""), st, getFault) ==
            ShortCodeHandler(Request(verb, "/" + code, ""), st, getFault)
  {
    ExtractShortCodeStripsOneSlash(code);
    ExtractShortCodeStripsOneSlash([Charset[0]] + code);
    DecodeIgnoresLeadingZero(code);
  }

  /** A code that does not decode (empty, a byte outside the alphabet such
      as '/' or '?', or an overflowing value) is answered 404 without the
      store being consulted: neither its contents nor its faults matter. */
  lemma MalformedCodeIsNotFound(req: Request, st1: Store, st2: Store, fault1: GetFault, fault2: GetFault)
    requires Decode(ExtractShortCode(req.target)).Failure?
    ensures ShortCodeHandler(req, st1, fault1) == NotFoundResponse
    ensures ShortCodeHandler(req, st1, fault1) == ShortCodeHandler(req, st2, fault2)
  {
  }

  /** A target with no code is never redirected, whatever the store
      holds. */
  lemma EmptyCodeIsNotFound(verb: Verb, st: Store, getFault: GetFault)
    ensures ShortCodeHandler(Request(verb, "/", ""), st, getFault) == NotFoundResponse
    ensures ShortCodeHandler(Request(verb, "", ""), st, getFault) == NotFoundResponse
  {
    assert ExtractShortCode("/") == [];
  }

  /** A code holding any character outside the alphabet, wherever it
      stands, is answered 404 whatever the store holds. */
  lemma OutsiderInCodeIsNotFound(req: Request, st: Store, getFault: GetFault, k: nat)
    requires k < |ExtractShortCode(req.target)| && !IsDigitChar(ExtractShortCode(req.target)[k])
    ensures ShortCodeHandler(req, st, getFault) == NotFoundResponse
  {
    DecodeSucceedsIff(ExtractShortCode(req.target));
  }

  /** So a target with a query string, or with a slash anywhere after its
      first character, is never redirected, whatever the store holds. */
  lemma SlashOrQueryIsNotFound(req: Request, st: Store, getFault: GetFault, k: nat)
    requires k < |req.target|
    requires req.target[k] == '?' || (0 < k && req.target[k] == '/')
    ensures ShortCodeHandler(req, st, getFault) == NotFoundResponse
  {
    var t := req.target;
    if t[0] == '/' {
      ExtractShortCodeStripsOneSlash(t[1..]);
      assert t == "/" + t[1..];
      OutsiderInCodeIsNotFound(req, st, getFault, k - 1);
    } else {
      OutsiderInCodeIsNotFound(req, st, getFault, k);
    }
  }

  /* ---------------------------------------------------------------- */
  /* Create handler                                                    */
  /* ---------------------------------------------------------------- */

  const MsgInvalidJson: string := "Invalid JSON format in request body."
  const MsgNotObject: string := "Request body must be a JSON object."
  const MsgMissingUrl: string := "Missing 'url' field in request body."
  const MsgUrlNotString: string := "'url' field must be a string."
  const MsgUrlEmpty: string := "'url' field cannot be empty."
  const MsgInternalError: string := "Internal server error"

  /** A parsed body the create handler accepts: an object whose "url"
      member is a non-empty string. */
  predicate IsCreateBody(parsed: Option<Json>)
  {
    && parsed.Some?
    && parsed.value.Object?
    && "url" in parsed.value.fields
    && parsed.value.fields["url"].Str?
    && |parsed.value.fields["url"].s| > 0
  }

  /** The validation ladder of the create handler, on the result of
      parsing the body (None when the body is not JSON). Each step has its
      own message and the first failing step decides. */
  function ValidateCreateBody(parsed: Option<Json>): (r: Result<string, string>)
    ensures r.Success? <==> IsCreateBody(parsed)
    ensures r.Success? ==> r.value == parsed.value.fields["url"].s
    ensures r == Failure(MsgInvalidJson) <==> parsed.None?
    ensures r == Failure(MsgNotObject) <==> parsed.Some? && !parsed.value.Object?
    ensures r == Failure(MsgMissingUrl) <==>
      parsed.Some? && parsed.value.Object? && "url" !in parsed.value.fields
    ensures r == Failure(MsgUrlNotString) <==>
      parsed.Some? && parsed.value.Object? && "url" in parsed.value.fields && !parsed.value.fields["url"].Str?
    ensures r == Failure(MsgUrlEmpty) <==>
      parsed.Some? && parsed.value.Object? && "url" in parsed.value.fields &&
      parsed.value.fields["url"].Str? && |parsed.value.fields["url"].s| == 0
  {
    match parsed
    case None => Failure(MsgInvalidJson)
    case Some(jv) =>
      if !jv.Object? then Failure(MsgNotObject)
      else if "url" !in jv.fields then Failure(MsgMissingUrl)
      else if !jv.fields["url"].Str? then Failure(MsgUrlNotString)
      else if |jv.fields["url"].s| == 0 then Failure(MsgUrlEmpty)
      else Success(jv.fields["url"].s)
  }

  /** Which store operations of one create fail. */
  datatype CreateFaults = CreateFaults(incrFails: bool, setFails: bool)

  /** The body of a 201 answer. */
  function CreatedBody(code: string, url: string): Json
  {
    Object(map["short_code" := Str(code), "url" := Str(url)])
  }

  /** The short code a 201 answer carries ("" when there is none). */
  function ShortCodeOf(res: Response): string
  {
    if res.body.Some? && res.body.value.Object? && "short_code" in res.body.value.fields
      && res.body.value.fields["short_code"].Str?
    then res.body.value.fields["short_code"].s
    else ""
  }

  /** A 201 answer carries the code it was built with. */
  lemma ShortCodeOfCreated(code: string, url: string)
    ensures ShortCodeOf(JsonResponse(StatusCreated, CreatedBody(code, url))) == code
  {
    var fields := map["short_code" := Str(code), "url" := Str(url)];
    assert "short_code" in fields && fields["short_code"] == Str(code);
  }

  /** The part of the create handler after validation: given the id the
      counter yielded (or its failure), encode it, store the URL under it
      and answer 201 with the code and the URL; a failed INCR leaves the
      store as it was, a failed SET leaves it as the INCR left it, and
      both answer 500. The id is encoded with `EncodeWide`, which agrees
      with the source's encoder on every id below 62^5. */
  function IssueCode(url: string, drawn: Result<(nat, Store), StorageError>, st: Store, setFails: bool)
    : (out: (Response, Store))
    requires drawn.Success? ==> drawn.value.0 <= Uint64Max
    ensures drawn.Failure? ==>
      out == (JsonResponse(StatusInternalServerError, ErrorBody(MsgInternalError)), st)
    ensures drawn.Success? && setFails ==>
      out == (JsonResponse(StatusInternalServerError, ErrorBody(MsgInternalError)), drawn.value.1)
    ensures drawn.Success? && !setFails ==>
      var (id, st1) := drawn.value;
      && out.0 == JsonResponse(StatusCreated, CreatedBody(ShortCodeOf(out.0), url))
      && ShortCodeOf(out.0) == EncodeWide(id)
      && Decode(ShortCodeOf(out.0)) == Success(id)
      && out.1.counter == st1.counter
      && out.1.urls.Keys == st1.urls.Keys + {id} && out.1.urls[id] == url
      && (forall k :: k in st1.urls && k != id ==> out.1.urls[k] == st1.urls[k])
  {
    match drawn
    case Failure(_) => (JsonResponse(StatusInternalServerError, ErrorBody(MsgInternalError)), st)
    case Success((id, st1)) =>
      var code := EncodeWide(id);
      match StoreUrl(st1, id, url, setFails)
      case Failure(_) => (JsonResponse(StatusInternalServerError, ErrorBody(MsgInternalError)), st1)
      case Success(st2) =>
        DecodeEncodeWide(id);
        ShortCodeOfCreated(code, url);
        (JsonResponse(StatusCreated, CreatedBody(code, url)), st2)
  }

  /** The create handler. A body failing validation gets 400 with the
      step's message and the store is not touched. Otherwise the next id
      is drawn, encoded and stored, and the answer is 201 with the code and
      the URL; a store failure gives 500, and when only the SET failed the
      counter has already advanced. */
  function NewShortCodeHandler(req: Request, parse: string -> Option<Json>, st: Store, faults: CreateFaults)
    : (out: (Response, Store))
    ensures var v := ValidateCreateBody(parse(req.body));
      v.Failure? ==> out == (JsonResponse(StatusBadRequest, ErrorBody(v.error)), st)
    ensures out.0.status == StatusCreated <==>
      IsCreateBody(parse(req.body)) && !faults.incrFails && st.counter < Int64Max && !faults.setFails
    ensures out.0.status == StatusCreated ==>
      var id, url := st.counter + 1, parse(req.body).value.fields["url"].s;
      && out.0 == JsonResponse(StatusCreated, CreatedBody(ShortCodeOf(out.0), url))
      && ShortCodeOf(out.0) == EncodeWide(id)
      && (id < PowBase(MaxDigits) ==> ShortCodeOf(out.0) == Encode(id))
      && Decode(ShortCodeOf(out.0)) == Success(id)
      && out.1.counter == id
      && out.1.urls.Keys == st.urls.Keys + {id} && out.1.urls[id] == url
      && (forall k :: k in st.urls && k != id ==> out.1.urls[k] == st.urls[k])
    ensures IsCreateBody(parse(req.body)) && out.0.status != StatusCreated ==>
      && out.0 == JsonResponse(StatusInternalServerError, ErrorBody(MsgInternalError))
      && out.1.urls == st.urls
      && out.1.counter == (if !faults.incrFails && st.counter < Int64Max then st.counter + 1 else st.counter)
  {
    match ValidateCreateBody(parse(req.body))
    case Failure(msg) => (JsonResponse(StatusBadRequest, ErrorBody(msg)), st)
    case Success(url) => IssueCode(url, GenerateNextId(st, faults.incrFails), st, faults.setFails)
  }

  /** A rejected body never reaches the store: the answer is the same
      whatever the store holds and whichever store operations would fail,
      and the store is returned unchanged. */
  lemma RejectedBodyMakesNoStoreCall(req: Request, parse: string -> Option<Json>,
                                     st1: Store, st2: Store, f1: CreateFaults, f2: CreateFaults)
    requires !IsCreateBody(parse(req.body))
    ensures NewShortCodeHandler(req, parse, st1, f1).0 == NewShortCodeHandler(req, parse, st2, f2).0
    ensures NewShortCodeHandler(req, parse, st1, f1).0.status == StatusBadRequest
    ensures NewShortCodeHandler(req, parse, st1, f1).1 == st1
  {
  }

  /** End to end: a create with a valid body and no store failure is
      answered 201, and afterwards a request for "/" + the issued code,
      with any method and body, is redirected to the submitted URL. */
  lemma CreateThenRedirect(req: Request, parse: string -> Option<Json>, st: Store, faults: CreateFaults,
                           verb: Verb, body: string)
    requires IsCreateBody(parse(req.body)) && !faults.incrFails && !faults.setFails
    requires st.counter < Int64Max
    ensures NewShortCodeHandler(req, parse, st, faults).0.status == StatusCreated
    ensures var out := NewShortCodeHandler(req, parse, st, faults);
      ShortCodeHandler(Request(verb, "/" + ShortCodeOf(out.0), body), out.1, NoFault) ==
        Response(StatusFound, Some(TextHtml), Some(parse(req.body).value.fields["url"].s), None)
  {
    ExtractShortCodeStripsOneSlash(ShortCodeOf(NewShortCodeHandler(req, parse, st, faults).0));
  }

  /** What a 201 answer of the create handler says about the code and
      the store, as facts about the named parts of the result. */
  lemma CreatedFacts(req: Request, parse: string -> Option<Json>, st: Store, faults: CreateFaults)
    requires IsCreateBody(parse(req.body)) && !faults.incrFails && !faults.setFails
    requires st.counter < Int64Max
    ensures var out := NewShortCodeHandler(req, parse, st, faults);
      && out.0.status == StatusCreated
      && Decode(ShortCodeOf(out.0)) == Success(st.counter + 1)
      && out.1.counter == st.counter + 1
      && out.1.urls == st.urls[st.counter + 1 := parse(req.body).value.fields["url"].s]
  {
    var out := NewShortCodeHandler(req, parse, st, faults);
    assert out.1.urls == st.urls[st.counter + 1 := parse(req.body).value.fields["url"].s];
  }

  /** Two successful creates in a row issue distinct codes, and the first
      code still redirects to the first URL after the second create. */
  lemma SuccessiveCodesDistinct(req1: Request, req2: Request, parse: string -> Option<Json>, st: Store,
                                faults: CreateFaults, verb: Verb, body: string)
    requires IsCreateBody(parse(req1.body)) && IsCreateBody(parse(req2.body))
    requires !faults.incrFails && !faults.setFails
    requires st.counter + 1 < Int64Max
    ensures var out1 := NewShortCodeHandler(req1, parse, st, faults);
      var out2 := NewShortCodeHandler(req2, parse, out1.1, faults);
      && out1.0.status == StatusCreated && out2.0.status == StatusCreated
      && ShortCodeOf(out1.0) != ShortCodeOf(out2.0)
      && ShortCodeHandler(Request(verb, "/" + ShortCodeOf(out1.0), body), out2.1, NoFault) ==
           Response(StatusFound, Some(TextHtml), Some(parse(req1.body).value.fields["url"].s), None)
  {
    var out1 := NewShortCodeHandler(req1, parse, st, faults);
    CreatedFacts(req1, parse, st, faults);
    CreatedFacts(req2, parse, out1.1, faults);
    ExtractShortCodeStripsOneSlash(ShortCodeOf(out1.0));
  }

  /* ---------------------------------------------------------------- */
  /* Create handler that never issues a reserved code                  */
  /* ---------------------------------------------------------------- */

  /** A counter id whose code is one of the reserved codes. Ids drawn
      from the counter are positive, and the code of a positive id is its
      digit string (`EncodeWideOfPositive`). */
  predicate ReservedId(id: nat, reserved: set<string>)
  {
    Digits(id) in reserved
  }

  lemma EncodeWideOfPositive(id: nat)
    requires 0 < id <= Uint64Max
    ensures EncodeWide(id) == Digits(id)
  {
  }

  /** Draws ids from the counter until one's code is not reserved. Every
      INCR fails while `incrFails` is set, and the store refuses to pass
      the signed 64-bit maximum. */
  function DrawId(st: Store, incrFails: bool, reserved: set<string>): (r: Result<(nat, Store), StorageError>)
    ensures incrFails ==> r.Failure?
    ensures !ReservedId(st.counter + 1, reserved) ==> r == GenerateNextId(st, incrFails)
    ensures r.Success? ==>
      && st.counter < r.value.0 <= Int64Max
      && r.value.1.counter == r.value.0 && r.value.1.urls == st.urls
      && !ReservedId(r.value.0, reserved)
    decreases Int64Max - st.counter
  {
    var next := GenerateNextId(st, incrFails);
    if next.Failure? then next
    else if ReservedId(next.value.0, reserved) then DrawId(next.value.1, incrFails, reserved)
    else next
  }

  /** `DrawId` skips only reserved ids: every id between the counter and
      the id drawn has a reserved code. */
  lemma {:induction false} DrawIdSkipsOnlyReserved(st: Store, incrFails: bool, reserved: set<string>, j: nat)
    requires DrawId(st, incrFails, reserved).Success?
    requires st.counter < j < DrawId(st, incrFails, reserved).value.0
    ensures ReservedId(j, reserved)
    decreases Int64Max - st.counter
  {
    var next := GenerateNextId(st, incrFails);
    assert next.Success?;
    var id := next.value.0;
    assert DrawId(st, incrFails, reserved) != next;
    assert ReservedId(id, reserved);
    if j > id {
      DrawIdSkipsOnlyReserved(next.value.1, incrFails, reserved, j);
    } else {
      assert j == id;
    }
  }

  /** The create handler with ids drawn by `DrawId`: identical to
      `NewShortCodeHandler` except that an id whose code is reserved is
      skipped, so an issued code is never a reserved one. */
  function NewShortCodeAvoiding(req: Request, parse: string -> Option<Json>, st: Store, faults: CreateFaults,
                                reserved: set<string>): (out: (Response, Store))
    ensures var v := ValidateCreateBody(parse(req.body));
      v.Failure? ==> out == (JsonResponse(StatusBadRequest, ErrorBody(v.error)), st)
    ensures out.0.status == StatusCreated <==>
      IsCreateBody(parse(req.body)) && DrawId(st, faults.incrFails, reserved).Success? && !faults.setFails
    ensures out.0.status == StatusCreated ==>
      && IsCreateBody(parse(req.body))
      && ShortCodeOf(out.0) !in reserved
      && Decode(ShortCodeOf(out.0)).Success?
      && var id, url := Decode(ShortCodeOf(out.0)).value, parse(req.body).value.fields["url"].s;
      && !ReservedId(id, reserved)
      && ShortCodeOf(out.0) == EncodeWide(id)
      && out.0 == JsonResponse(StatusCreated, CreatedBody(ShortCodeOf(out.0), url))
      && st.counter < id == out.1.counter
      && out.1.urls.Keys == st.urls.Keys + {id} && out.1.urls[id] == url
      && (forall k :: k in st.urls && k != id ==> out.1.urls[k] == st.urls[k])
    ensures IsCreateBody(parse(req.body)) && out.0.status != StatusCreated ==>
      out.0 == JsonResponse(StatusInternalServerError, ErrorBody(MsgInternalError)) && out.1.urls == st.urls
  {
    match ValidateCreateBody(parse(req.body))
    case Failure(msg) => (JsonResponse(StatusBadRequest, ErrorBody(msg)), st)
    case Success(url) =>
      var drawn := DrawId(st, faults.incrFails, reserved);
      if drawn.Success? then
        EncodeWideOfPositive(drawn.value.0);
        IssueCode(url, drawn, st, faults.setFails)
      else IssueCode(url, drawn, st, faults.setFails)
  }

  /** When the next code is not reserved (in particular when nothing is),
      the avoiding handler behaves exactly as the source's handler. */
  lemma AvoidingAgreesOffReserved(req: Request, parse: string -> Option<Json>, st: Store, faults: CreateFaults,
                                  reserved: set<string>)
    requires !ReservedId(st.counter + 1, reserved)
    ensures NewShortCodeAvoiding(req, parse, st, faults, reserved) == NewShortCodeHandler(req, parse, st, faults)
  {
    assert DrawId(st, faults.incrFails, reserved) == GenerateNextId(st, faults.incrFails);
  }
}

=== FILE: http.dfy ===
/** The request and response values handlers see, and the JSON values
    their bodies carry. JSON text is not modelled: the parser is a
    parameter of the handler that reads a body, and a response body is
    the JSON value that would be serialised. */
module Http {
  import opened Wrappers
  import opened Router

  /** A JSON value. Numbers are abstracted to integers. */
  datatype Json =
    | Null
    | Bool(b: bool)
    | Number(n: int)
    | Str(s: string)
    | Array(items: seq<Json>)
    | Object(fields: map<string, Json>)

  /** The parts of a request the handlers read. */
  datatype Request = Request(verb: Verb, target: string, body: string)

  /** The parts of a response the handlers write: status code, the
      Content-Type and Location headers, and the body. */
  datatype Response = Response(status: nat, contentType: Option<string>, location: Option<string>, body: Option<Json>)

  const StatusOk: nat := 200
  const StatusCreated: nat := 201
  const StatusFound: nat := 302
  const StatusBadRequest: nat := 400
  const StatusNotFound: nat := 404
  const StatusInternalServerError: nat := 500

  const ApplicationJson: string := "application/json"
  const TextHtml: string := "text/html"

  /** The response object the session hands to a handler: the HTTP
      library's default, status 200 with no headers and an empty body. */
  const FreshResponse: Response := Response(StatusOk, None, None, None)

  /** The body {"error": message}. */
  function ErrorBody(message: string): Json
  {
    Object(map["error" := Str(message)])
  }

  /** A JSON response with the given status and body. */
  function JsonResponse(status: nat, body: Json): Response
  {
    FreshResponse.(status := status, contentType := Some(ApplicationJson), body := Some(body))
  }
}

=== FILE: router.dfy ===
/** The request router: an exact-match table from (method, target) to a
    handler, with a fallback handler given at construction for every
    request that matches no route. Handlers are abstract here (type
    parameter H); the service's own handlers are named in module App. */
module Router {
  import opened Wrappers

  /** HTTP request methods, as the HTTP library's verb enumeration names
      them. The library's further named verbs (the WebDAV ones, PURGE and
      the like) are `Named`, one value per name; every method the library
      does not recognise is the single value `Unknown`, so two unknown
      methods select the same routes. */
  datatype Verb = Delete | Get | Head | Post | Put | Connect | Options | Trace | Patch | Named(name: string) | Unknown

  /** A stored route key: it owns a copy of the target string. */
  datatype RouteKey = RouteKey(verb: Verb, target: string)

  /** The borrowed key a lookup is made with: the request's method and a
      view of its target. */
  type LookupKey = (Verb, string)

  /** RouteKeyEqual on a stored key and a lookup key: same method and the
      same target, byte for byte (no case folding, no trailing-slash or
      query-string handling). */
  predicate KeyEqualsLookup(lhs: RouteKey, rhs: LookupKey)
  {
    lhs.verb == rhs.0 && lhs.target == rhs.1
  }

  /** RouteKeyEqual on two stored keys. */
  predicate KeyEquals(lhs: RouteKey, rhs: RouteKey)
  {
    lhs.verb == rhs.verb && lhs.target == rhs.target
  }

  /** The two equality overloads agree, and both are plain equality of
      keys: a stored key matches a lookup (m, v) exactly when it is the key
      RouteKey(m, v). */
  lemma EqualityOverloadsAgree(k: RouteKey, m: Verb, v: string)
    ensures KeyEqualsLookup(k, (m, v)) <==> KeyEquals(k, RouteKey(m, v))
    ensures KeyEquals(k, RouteKey(m, v)) <==> k == RouteKey(m, v)
  {
  }

  /** RouteKeyHash on a stored key: hash_combine of the method's hash and
      then the target's hash into a zero seed. The combining step and the
      element hashes belong to the hashing library and are parameters. */
  function HashKey(k: RouteKey, combine: (nat, nat) -> nat, hashVerb: Verb -> nat, hashText: string -> nat): nat
  {
    combine(combine(0, hashVerb(k.verb)), hashText(k.target))
  }

  /** RouteKeyHash on a lookup key. It is given the same `hashText` as the
      stored-key overload: the string hash and the string-view hash are
      taken to agree on equal contents, as the hashing library's do. */
  function HashLookup(k: LookupKey, combine: (nat, nat) -> nat, hashVerb: Verb -> nat, hashText: string -> nat): nat
  {
    combine(combine(0, hashVerb(k.0)), hashText(k.1))
  }

  /** Keys that compare equal hash equally, whichever overload is used,
      so a lookup key finds the bucket of its stored key. */
  lemma HashOverloadsAgree(k: RouteKey, l: LookupKey, combine: (nat, nat) -> nat, hashVerb: Verb -> nat, hashText: string -> nat)
    requires KeyEqualsLookup(k, l)
    ensures HashKey(k, combine, hashVerb, hashText) == HashLookup(l, combine, hashVerb, hashText)
  {
  }

  /** The router: the route table (at most one handler per key) and the
      fallback handler. */
  datatype Router<H> = Router(routes: map<RouteKey, H>, notFound: H)

  /** The constructor: an empty table and the given fallback. */
  function NewRouter<H>(notFound: H): (r: Router<H>)
    ensures r.routes == map[] && r.notFound == notFound
  {
    Router(map[], notFound)
  }

  /** add_route, with emplace semantics: a key already present keeps its
      handler (the first registration wins); a fresh key gains exactly
      the new binding; nothing else changes. */
  function AddRoute<H>(r: Router<H>, key: RouteKey, handler: H): (r': Router<H>)
    ensures r'.notFound == r.notFound
    ensures r'.routes.Keys == r.routes.Keys + {key}
    ensures forall k :: k in r.routes ==> r'.routes[k] == r.routes[k]
    ensures key !in r.routes ==> r'.routes[key] == handler
  {
    if key in r.routes then r else Router(r.routes[key := handler], r.notFound)
  }

  /** dispatch: the handler to invoke for a request with this method and
      target. It is the one bound to the stored key equal to the lookup
      key if there is one, and the fallback otherwise. */
  function Dispatch<H>(r: Router<H>, verb: Verb, target: string): (h: H)
    ensures forall k :: k in r.routes && KeyEqualsLookup(k, (verb, target)) ==> h == r.routes[k]
    ensures (forall k :: k in r.routes ==> !KeyEqualsLookup(k, (verb, target))) ==> h == r.notFound
  {
    var key := RouteKey(verb, target);
    if key in r.routes then r.routes[key] else r.notFound
  }

  /** Registering a list of routes in order, one add_route per entry. */
  function Register<H>(r: Router<H>, regs: seq<(RouteKey, H)>): Router<H>
    decreases |regs|
  {
    if |regs| == 0 then r else Register(AddRoute(r, regs[0].0, regs[0].1), regs[1..])
  }

  /** The handler of the earliest entry for `key` in a registration list. */
  function FirstRegistration<H>(regs: seq<(RouteKey, H)>, key: RouteKey): Option<H>
    decreases |regs|
  {
    if |regs| == 0 then None
    else if regs[0].0 == key then Some(regs[0].1)
    else FirstRegistration(regs[1..], key)
  }

  lemma {:induction false} RegisterKeepsExisting<H>(r: Router<H>, regs: seq<(RouteKey, H)>, key: RouteKey)
    ensures Register(r, regs).notFound == r.notFound
    ensures key in r.routes ==> key in Register(r, regs).routes && Register(r, regs).routes[key] == r.routes[key]
    ensures key !in r.routes ==>
      match FirstRegistration(regs, key)
      case Some(h) => key in Register(r, regs).routes && Register(r, regs).routes[key] == h
      case None => key !in Register(r, regs).routes
    decreases |regs|
  {
    if |regs| > 0 {
      RegisterKeepsExisting(AddRoute(r, regs[0].0, regs[0].1), regs[1..], key);
    }
  }

  /** After registering a list of routes on a fresh router, a request goes
      to the handler of the FIRST registration of its exact key, and to
      the fallback when its key was never registered. */
  lemma {:induction false} DispatchAfterRegistration<H>(notFound: H, regs: seq<(RouteKey, H)>, verb: Verb, target: string)
    ensures Dispatch(Register(NewRouter(notFound), regs), verb, target) ==
      match FirstRegistration(regs, RouteKey(verb, target))
      case Some(h) => h
      case None => notFound
  {
    RegisterKeepsExisting(NewRouter(notFound), regs, RouteKey(verb, target));
  }
}

=== FILE: storage.dfy ===
/** The key-value store behind the service, as abstract state: the id
    counter (the Redis key "url_counter") and the stored URLs (the Redis
    keys "url:<id>", one per id). Transport and protocol failures are not
    modelled in detail: INCR and SET take a `fault` flag that, when set,
    makes them fail without effect; GET takes a `GetFault`, because it
    tells a thrown failure from an error reply. */
module Storage {
  import opened Wrappers

  /** The largest value of the store's signed 64-bit counter. */
  const Int64Max: nat := 0x7FFF_FFFF_FFFF_FFFF

  datatype Store = Store(counter: nat, urls: map<nat, string>)

  /** A failed store operation (the source throws). */
  datatype StorageError = StorageFault

  /** generate_next_id: INCR on the counter yields the incremented value.
      The store refuses to increment past the signed 64-bit maximum. */
  function GenerateNextId(st: Store, fault: bool): (r: Result<(nat, Store), StorageError>)
    ensures r.Success? <==> !fault && st.counter < Int64Max
    ensures r.Success? ==> r.value.0 == st.counter + 1 && r.value.0 <= Int64Max
    ensures r.Success? ==> r.value.1.counter == r.value.0 && r.value.1.urls == st.urls
  {
    if fault || st.counter >= Int64Max then Failure(StorageFault)
    else Success((st.counter + 1, st.(counter := st.counter + 1)))
  }

  /** store_url: SET "url:<id>" to the URL. */
  function StoreUrl(st: Store, id: nat, url: string, fault: bool): (r: Result<Store, StorageError>)
    ensures r.Success? <==> !fault
    ensures r.Success? ==> r.value.counter == st.counter
    ensures r.Success? ==> r.value.urls.Keys == st.urls.Keys + {id} && r.value.urls[id] == url
    ensures r.Success? ==> forall k :: k in st.urls && k != id ==> r.value.urls[k] == st.urls[k]
  {
    if fault then Failure(StorageFault) else Success(st.(urls := st.urls[id := url]))
  }

  /** How a GET goes: normally, with a failure the connection throws,
      or with an error reply from the server (WRONGTYPE, say). */
  datatype GetFault = NoFault | Throws | ErrorReply

  /** get_url: GET "url:<id>". A missing key is an absent value, not an
      error, and so is an error reply: get_url only asks whether the
      reply holds a value. Only a thrown failure propagates. */
  function GetUrl(st: Store, id: nat, fault: GetFault): (r: Result<Option<string>, StorageError>)
    ensures r.Success? <==> fault != Throws
    ensures r.Success? ==> (r.value.Some? <==> fault == NoFault && id in st.urls)
    ensures r.Success? && r.value.Some? ==> r.value.value == st.urls[id]
  {
    match fault
    case Throws => Failure(StorageFault)
    case ErrorReply => Success(None)
    case NoFault => if id in st.urls then Success(Some(st.urls[id])) else Success(None)
  }

  /** A stored URL reads back, and storing under one id leaves every other
      id's lookup unchanged. */
  lemma GetAfterStore(st: Store, id: nat, url: string, other: nat)
    requires StoreUrl(st, id, url, false).Success?
    ensures GetUrl(StoreUrl(st, id, url, false).value, id, NoFault) == Success(Some(url))
    ensures other != id ==> GetUrl(StoreUrl(st, id, url, false).value, other, NoFault) == GetUrl(st, other, NoFault)
  {
  }

  /** Successive ids are distinct: a second INCR after a first one yields
      a larger id. */
  lemma NextIdsIncrease(st: Store)
    requires GenerateNextId(st, false).Success?
    requires GenerateNextId(GenerateNextId(st, false).value.1, false).Success?
    ensures GenerateNextId(GenerateNextId(st, false).value.1, false).value.0 > GenerateNextId(st, false).value.0
  {
  }
}

=== FILE: wrappers.dfy ===
/** Failure-carrying datatypes shared by the modules of the model: an
    optional value (the source's std::optional), a value-or-error and a
    pass-or-error (the source's std::expected). */
module Wrappers {

  /** A value that may be absent. */
  datatype Option<+T> = None | Some(value: T)

  /** Either a computed value or an error. */
  datatype Result<+R, +E> = Success(value: R) | Failure(error: E)

  /** Success without a value, or an error (std::expected<void, E>). */
  datatype Outcome<+E> = Pass | Fail(error: E)
}
